=== FILE: README.md ===
# Rocket simulator game logic, in Dafny

A model of the discrete game logic of a browser rocket-flight game: the
game store and its actions (start, complete, fail and reset a mission,
pause, throttle, telemetry, achievements, experience), the once-a-second
game-logic tick (game clock, achievement scan, mission-phase guards, hull
failure), the achievement catalog and its conditions, the mission-select
availability filter, the mission score and failure reason, the
minutes:seconds and `HH:MM:SS` clocks, and the keyboard controls with the
bookkeeping after each physics frame.

The flight numerics are not modelled. The rocket is a record of reals that
the logic reads and compares. The physics step's output is a parameter of
`GameScene.AfterPhysicsFrame`.

Modules, one per source file:

- `GameTypes` (`types.dfy`): the records of `src/types/index.ts`.
- `Store` (`store.dfy`): `src/store/gameStore.ts`.
- `AchievementRules` (`achievements.dfy`): `src/game/achievements.ts`.
- `MissionSelect` (`mission_select.dfy`): `src/components/MissionSelect.tsx`.
- `MissionResults` (`mission_results.dfy`): `src/components/MissionComplete.tsx`.
- `Cockpit` (`cockpit.dfy`): `formatTime` of `src/components/Cockpit.tsx`.
- `GameScene` (`game_scene.dfy`): the key handlers and the frame hook of `src/components/GameScene.tsx`.
- `App` (`app.dfy`): `src/App.tsx`, plus the buttons of the end-of-mission screens.
- `Text` (`text.dfy`): decimal rendering, `padStart`, `split` and ASCII lower-casing, with read-back lemmas.

Every store action is a pure function from one game state to the next.
"Nothing else changes" is stated as `r == s.(f := r.f, ...)`, which lists
only the fields the action writes. The wall clock that `new Date()` reads is
a `now: nat` parameter. The mission catalog (`src/missions/missions.ts`) is
not part of this model; it is a parameter sequence.

## Behaviour worth knowing

The model reproduces these behaviours of the code.

- Telemetry keeps the last 100 samples and then appends one, so the buffer holds up to 101 samples (`Store.AddTelemetry`, `Store.FeedFromEmpty`).
- The perfect-landing condition compares the signed vertical velocity (`velocity.y < 1`). A landed rocket moving downward at any speed qualifies.
- Nothing ever evaluates the `first-flight` and `veteran` achievements. The tick's scan skips them, and mission completion does not check them.
- The scan walks the module-level catalog, whose entries are never flagged unlocked. Every satisfied achievement is therefore unlocked again on every tick, and its time stamp is refreshed.
- The hull check runs after the phase chain. A landed rocket in LANDING with hull ≤ 0 is first recorded as completed and paid, then marked failed.
- The completion screen's Continue button calls `completeMission` again, after the tick has already called it. The mission is recorded twice and paid twice.
- The physics instance is built once, from the store's rocket at mount time, and nothing passes later store changes to it. Each frame then stores the physics rocket over the store's, so key presses, engine toggles and the LAUNCH auto-throttle last at most until the next frame (`GameScene.KeyPressLostAtNextFrame`).

## Model

| member | source | states |
|---|---|---|
| `Store.SetMissionPhase` | src/store/gameStore.ts:71 | the phase becomes the argument and nothing else changes |
| `Store.SetMissionStatus` | src/store/gameStore.ts:73 | the status becomes the argument; the pause flag and everything else stay as they were |
| `Store.UpdateRocket` | src/store/gameStore.ts:75-78 | the rocket becomes the merged rocket and nothing else in the store changes |
| `Store.SetThrottle` | src/store/gameStore.ts:80-83 | throttle becomes the argument clamped to [0,1] (0 below, 1 above); every other rocket and store field is unchanged |
| `Store.SetEngineOn` | src/store/gameStore.ts:85-88 | only the engine flag changes, to the argument |
| `Store.TogglePause` | src/store/gameStore.ts:90-94 | the pause flag flips; status becomes PAUSED when newly paused and IN_PROGRESS when resumed, whatever it was before; nothing else changes |
| `Store.TogglePauseTwice` | src/store/gameStore.ts:90-94 | two toggles restore the pause flag and every other field except the status |
| `Store.AddTelemetry` | src/store/gameStore.ts:96-99 | length after an append is min(old,100)+1; the new sample is last; the earlier entries are the old buffer's latest ones, in order |
| `Store.AppendAllKeepsLatest` | src/store/gameStore.ts:96-99 | feeding samples one by one into a buffer of at most 101 leaves exactly the latest min(n,101) samples of the whole history |
| `Store.FeedFromEmpty` | src/store/gameStore.ts:96-99 | from empty, after n samples the buffer holds min(n,101) samples: the last ones fed |
| `Store.UpdateTelemetry` | src/store/gameStore.ts:166-182 | appends one sample with the bounded-buffer shape, keeping the latest earlier samples in order; its time stamp is the game clock, its altitude, speed, temperature and hull are the rocket's, and its acceleration, fuel level and g-force are the given readings |
| `Store.UnlockAchievement` | src/store/gameStore.ts:101-106 | entries with the id become unlocked, stamped with the clock reading; other entries and other fields are unchanged |
| `Store.UnlockAgain` | src/store/gameStore.ts:101-106 | a second unlock leaves the flags as the first set them but overwrites the matching entries' time stamp |
| `Store.FindMission` | src/store/gameStore.ts:110 | finds nothing exactly when no listed mission has the id; otherwise returns the first mission with the id |
| `Store.StartMission` | src/store/gameStore.ts:108-123 | an unknown id changes nothing; otherwise the first listed mission with the id becomes current, with its own objectives in order, each marked not completed, and the rest of the mission as listed; phase PRE_FLIGHT, status IN_PROGRESS, the pad rocket, empty telemetry and clock 0, and nothing else changes (ledger kept) |
| `Store.CompleteObjective` | src/store/gameStore.ts:125-136 | no mission: no change; otherwise only objectives with the id become completed, the rest of the mission and of the store is unchanged |
| `Store.CompleteMission` | src/store/gameStore.ts:138-149 | no mission: no change; otherwise appends the id once, adds the reward credits and experience, sets the level for the new experience total, phase MISSION_COMPLETE and status COMPLETED |
| `Store.CompleteMissionTwice` | src/store/gameStore.ts:138-149 | a second completion appends the id again and pays the rewards again |
| `Store.LevelFor` | src/store/gameStore.ts:147 | the level is the one whose thousand-experience band contains the total: (level-1)·1000 ≤ xp < level·1000 |
| `Store.LevelForUnique` | src/store/gameStore.ts:147 | the level band that contains an experience total is unique |
| `Store.FailMission` | src/store/gameStore.ts:151-155 | phase MISSION_FAILED and status FAILED unconditionally; credits, experience, level and completed missions unchanged |
| `Store.ResetMission` | src/store/gameStore.ts:157-164 | pad rocket, empty telemetry, clock 0, PRE_FLIGHT, NOT_STARTED; current mission, pause flag and ledger kept |
| `Store.ResetRestoresCanonicalRocket` | src/store/gameStore.ts:5-26 | after a reset: fuel = capacity = 10000, hull 100, throttle 0, engine off, landed, mass 5000 |
| `Store.ResetIdempotent` | src/store/gameStore.ts:157-164 | resetting twice is the same as resetting once |
| `Store.AddCredits` | src/store/gameStore.ts:184-187 | credits change by exactly the amount; nothing else changes |
| `Store.AddExperience` | src/store/gameStore.ts:189-193 | experience changes by exactly the amount and the level matches the new total |
| `Store.SetAvailableMissions` | src/store/gameStore.ts:195 | the mission list becomes the argument and nothing else changes |
| `Store.SetAchievements` | src/store/gameStore.ts:197 | the achievement list becomes the argument and nothing else changes |
| `AchievementRules.CatalogShape` | src/game/achievements.ts:3-100 | 12 entries with distinct ids, all locked with no time stamp, one per achievement kind |
| `AchievementRules.CheckAchievement` | src/game/achievements.ts:102-136 | an achievement can only hold for an id the catalog knows |
| `AchievementRules.LedgerDockingAndFuelRules` | src/game/achievements.ts:109-128 | first-flight ⇔ at least 1 completed mission; veteran ⇔ at least 10; docking-master ⇔ docked; fuel-efficiency ⇔ fuel/capacity·100 ≥ 30, that is 10·fuel ≥ 3·capacity for a positive capacity, and fuel > 0 for a zero capacity |
| `AchievementRules.ThresholdRules` | src/game/achievements.ts:111-132 | karman-line ⇔ altitude ≥ 100000; speed-demon ⇔ speed ≥ 10000; orbital ⇔ ORBIT and speed ≥ 7800; lunar-lander ⇔ LANDING and altitude = 0; survivor ⇔ 0 < hull < 20; millionaire ⇔ credits ≥ 1000000; orbital-veteran ⇔ clock ≥ 36000 |
| `AchievementRules.PerfectLandingIsSigned` | src/game/achievements.ts:119-120 | perfect-landing ⇔ landed and signed vertical velocity < 1; a fast downward landing qualifies |
| `AchievementRules.SurvivorBoundsStrict` | src/game/achievements.ts:125-126 | a hull of exactly 0 or exactly 20 does not earn survivor |
| `AchievementRules.VeteranImpliesFirstFlight` | src/game/achievements.ts:109-128 | whenever veteran holds, first-flight holds for the same state |
| `AchievementRules.UnknownIdNeverHolds` | src/game/achievements.ts:133-134 | an id outside the catalog never holds |
| `MissionSelect.AvailableMissions` | src/components/MissionSelect.tsx:8-13 | a mission is offered iff it is in the catalog, not completed, and every prerequisite is completed; an offered mission is kept as many times as the catalog lists it |
| `MissionSelect.AvailableIsSubsequence` | src/components/MissionSelect.tsx:9 | the offered list is a subsequence of the catalog, in catalog order |
| `MissionSelect.NoCompletedMissionOffered` | src/components/MissionSelect.tsx:10 | a completed mission is never offered |
| `MissionSelect.NoPrerequisitesOfferedUnlessCompleted` | src/components/MissionSelect.tsx:11 | a mission without prerequisites is offered iff it is not completed |
| `MissionSelect.AllCompletedShown` | src/components/MissionSelect.tsx:109 | the "all missions completed" message shows iff no catalog mission is offered |
| `MissionResults.CountCompleted` | src/components/MissionComplete.tsx:25 | the count is the number of positions holding a completed objective; at most the number of objectives; equal to it iff all are completed; zero iff none is |
| `MissionResults.MaxGForce` | src/components/MissionComplete.tsx:29 | the result is a sample's g-force and no sample exceeds it |
| `MissionResults.CalculateScore` | src/components/MissionComplete.tsx:22-33 | 0 without a mission; otherwise 1000 + 500 per completed objective + 500 iff fuel above 30% + 300 iff hull above 80 + 200 iff there are samples and all are below 5 g; between 1000 and 2000 + 500 per objective |
| `MissionResults.ScoreThresholdsStrict` | src/components/MissionComplete.tsx:26-27 | exactly 30% fuel and exactly 80 hull earn no bonus |
| `MissionResults.GetFailureReason` | src/components/MissionComplete.tsx:140-145 | each reason holds exactly when its test passes and all earlier tests fail: hull ≤ 0, then empty tank above 1000 m, then above 100000 m below 100 m/s, else objectives not met |
| `MissionResults.FailureMessage` | src/components/MissionComplete.tsx:140-145 | the failure screen shows "Critical hull failure", "Fuel depletion", "Orbital velocity not achieved" or "Mission objectives not met", each exactly when its test passes and all earlier tests fail |
| `MissionResults.FuelDepletionShadowsOrbitalVelocity` | src/components/MissionComplete.tsx:141-143 | a stalled rocket above 100 km with an empty tank is reported as fuel depletion |
| `MissionResults.MissionTime` | src/components/MissionComplete.tsx:87-88 | two colon-separated fields: the unpadded minutes and the seconds padded to two digits; they read back as minutes·60 + seconds = clock with seconds < 60 |
| `Cockpit.FormatTime` | src/components/Cockpit.tsx:75-80 | three colon-separated digit fields: the hours in decimal padded to at least two digits, and exactly two digits each of minutes and seconds; hours·3600 + minutes·60 + seconds = input with minutes, seconds < 60; hours not wrapped; length 8 below 100 hours |
| `Cockpit.FormatTimeRoundTrip` | src/components/Cockpit.tsx:75-80 | parsing the clock string gives back the seconds |
| `Cockpit.FormatTimeInjective` | src/components/Cockpit.tsx:75-80 | different seconds give different clock strings |
| `Cockpit.FormatTimeAtZero` | src/components/Cockpit.tsx:75-80 | 0 seconds shows as 00:00:00 |
| `GameScene.HandleKeyDown` | src/components/GameScene.tsx:56-111 | unbound keys change nothing; only P touches fields outside the rocket, and it is the pause toggle; space flips only the engine flag; a turn key sets one angular-rate component to ±0.5 and keeps the others; shift gives min(1, t+0.1) and control max(0, t-0.1), and no key takes a throttle in [0,1] outside it |
| `GameScene.HandleKeyUp` | src/components/GameScene.tsx:113-138 | releasing a turn key zeroes only that axis's rate; other keys change nothing |
| `GameScene.KeysCaseInsensitive` | src/components/GameScene.tsx:57 | a key name and its lower-case form act the same on press and on release |
| `GameScene.EngineToggleTwice` | src/components/GameScene.tsx:58-62 | pressing space twice restores the whole state |
| `GameScene.ReleaseMatchesPress` | src/components/GameScene.tsx:63-138 | each turn key is released onto the axis it turns |
| `GameScene.AfterPhysicsFrame` | src/components/GameScene.tsx:33-47 | the stepped rocket is stored, with throttle forced to 1 exactly when the frame started in LAUNCH above 1000 m; a sample is recorded iff the status is IN_PROGRESS, keeping the latest earlier samples, and it carries the stored rocket's altitude, speed, temperature and hull, the clock and the readings; nothing else changes |
| `GameScene.KeyPressLostAtNextFrame` | src/components/GameScene.tsx:17-37 | the physics step ignores the store, so the rocket after the next frame is the same whether or not a key was pressed |
| `GameScene.PausedFramesRecordNothing` | src/components/GameScene.tsx:43-46 | after pausing with P, a frame records no telemetry |
| `App.Boot` | src/App.tsx:21-24 | the store starts from its initial values with the mission catalog and the achievement catalog loaded |
| `App.Scan` | src/App.tsx:33-39 | an achievement is unlocked and stamped iff some scanned entry with its id fires; all other entries and fields are unchanged |
| `App.CatalogScanFires` | src/App.tsx:33-39 | scanning the catalog unlocks an id iff it is not first-flight or veteran and its condition holds |
| `App.LogicTick` | src/App.tsx:27-62 | no effect unless IN_PROGRESS and unpaused; otherwise the clock rises by 1, satisfied achievements are restamped, hull ≤ 0 ends in MISSION_FAILED/FAILED, else the phase moves to its successor iff its guard holds on the snapshot (LANDING only with a mission); a completing tick appends the mission id, adds its reward credits and experience and sets the level for the new total; otherwise the ledger is unchanged; rocket, telemetry, current mission, pause flag, mission list and environment unchanged |
| `App.AtMostOneTransition` | src/App.tsx:41-55 | a tick leaves the phase, moves it one step in flight order, or fails the mission |
| `App.NoGuardOutOfPreFlightOrDocking` | src/App.tsx:41-60 | PRE_FLIGHT and DOCKING are left only through hull failure |
| `App.OrbitGuardReadsSnapshot` | src/App.tsx:48 | ORBIT at clock 100 stays ORBIT although the clock reads 101 after the tick |
| `App.CompletionThenFailure` | src/App.tsx:52-60 | landed in LANDING with hull ≤ 0: the mission is recorded and paid, then ends FAILED on the failure screen |
| `App.TerminalTicksAreNoOps` | src/App.tsx:29 | after a tick that ends the mission, further ticks change nothing |
| `App.MilestonesNeverScanned` | src/App.tsx:34 | the tick never touches the first-flight and veteran entries |
| `App.SatisfiedAchievementRestamped` | src/App.tsx:33-39 | every satisfied achievement other than first-flight and veteran is unlocked again on an active tick and stamped with the current clock reading |
| `App.HandleRetry` | src/App.tsx:75-78 | resets rocket, telemetry, clock, phase and status to their start values; ledger, current mission, achievements, mission list, pause flag and environment kept; shows the scene |
| `App.HandleQuit` | src/App.tsx:80-83 | the same reset as retry, then the menu |
| `App.FailedScreenRetry` | src/components/MissionComplete.tsx:129-133 | the failure screen's double reset equals a single retry |
| `App.Continue` | src/components/MissionComplete.tsx:16-20 | with a mission: its id is appended once more, the reward credits and experience are paid again and the level matches the new total; without one the ledger is kept; then rocket, telemetry, clock, phase and status are reset, the menu is shown, and nothing else changes |
| `App.ContinueAfterLandingPaysTwice` | src/App.tsx:52-53 | landing and then continue records the mission twice and pays credits and experience twice |
| `App.SelectMission` | src/components/MissionSelect.tsx:15-19 | a listed id starts the first listed mission with it, its objectives reset, in PRE_FLIGHT, IN_PROGRESS with the pad rocket, empty telemetry and clock 0, and nothing else in the store changes; an unlisted one changes nothing; the scene is shown |
| `App.OfferedMissionStarts` | src/components/MissionSelect.tsx:8-19 | every mission the select screen offers from the mission catalog starts when chosen, with the completed list untouched; the screen filters the module-level catalog while the start searches the store's list, which agree because booting (src/App.tsx:22) is the only place that sets it |

## Left out

- The flight model (`src/physics/rocketPhysics.ts`) is left out. It is floating-point numerics plus a three.js Euler rotation. The rocket it produces is a parameter of `GameScene.AfterPhysicsFrame`.
- Audio, rendering, lights and the React/three.js wiring are left out. So are the `setInterval` timer and the `useEffect` hooks; the tick body is modelled, not the timer.
- The HUD, the achievements screen, the pause menu and the rest of the cockpit are left out. They are presentation only.
- The mission catalog (`src/missions/missions.ts`) is not part of this model. It is a parameter.
- `Date` time stamps are an abstract `now: nat` clock reading.
- `Store.UpdateTelemetry`: the acceleration, fuel percentage and g-force of a sample are given as a `Readings` parameter. Their floating-point formulas are not modelled.
- Reals are exact. The model does not reproduce IEEE rounding: repeated 0.1 throttle steps, for example, are exact here. A zero fuel capacity is treated as an infinite percentage when fuel is positive. Otherwise the quotient fails every comparison.
- `Store.ResetMission`: the code installs one shared, mutable pad-rocket object on every reset and every start, and hands the store's rocket to the physics instance, which updates it in place each frame. After one frame on the pad, that shared object no longer holds the declared pad values; its speed and temperature, for example, have changed. The model installs the declared values every time (`Store.StartMission` too). No modelled decision reads those fields near a threshold right after a reset.
- Credits, experience, level and rewards are unbounded integers. The code stores them as JavaScript numbers, which lose precision above 2^53; that limit is not modelled.
- `GameScene.HandleKeyDown`: key names are lower-cased for ASCII letters only; JavaScript's full Unicode `toLowerCase` is not modelled.
- `GameScene.AfterPhysicsFrame`: the stepped rocket is a free parameter, so the contract does not show what the stepped rocket holds. In the code it comes from a physics instance built once from the mount-time rocket, which never receives store changes. Key presses, `setEngineOn` and the auto-throttle are lost at the next frame, and the engine flag the physics reads stays as it was at mount time (off for a freshly started mission). `GameScene.KeyPressLostAtNextFrame` states the part the model can state.
- `GameScene.AfterPhysicsFrame`: the LAUNCH gate reads the state the frame started from. The source reads the last rendered state, which can lag by more than one frame; that lag is not modelled.
- The main menu's START MISSION button only switches screens and is left out. The pause menu's buttons are outside the modelled components; its restart calls the same reset that `Store.ResetMission` models.

=== FILE: achievements.dfy ===
/**
 The achievement catalog and the predicate that decides, for an id and a
 game state, whether the achievement's condition holds. The predicate is
 keyed by id string; `Kind` enumerates the catalog's entries.
 */
module AchievementRules {
  import opened GameTypes

  const FirstFlightId := "first-flight"
  const KarmanLineId := "karman-line"
  const OrbitalId := "orbital"
  const DockingMasterId := "docking-master"
  const LunarLanderId := "lunar-lander"
  const PerfectLandingId := "perfect-landing"
  const FuelEfficiencyId := "fuel-efficiency"
  const SpeedDemonId := "speed-demon"
  const SurvivorId := "survivor"
  const VeteranId := "veteran"
  const MillionaireId := "millionaire"
  const OrbitalVeteranId := "orbital-veteran"

  function Locked(id: string, name: string, description: string, icon: string, rarity: Rarity): Achievement
  {
    Achievement(id, name, description, false, None, icon, rarity)
  }

  /** The fixed catalog, in display order, every entry still locked. */
  const Catalog: seq<Achievement> := [
    Locked(FirstFlightId, "First Flight", "Complete your first mission", "\U{1F680}", Common),
    Locked(KarmanLineId, "Edge of Space", "Reach the Karman line (100km)", "\U{1F30C}", Common),
    Locked(OrbitalId, "Orbital Pilot", "Achieve stable orbit", "\U{1F30D}", Rare),
    Locked(DockingMasterId, "Docking Master", "Successfully dock with a space station", "\U{1F517}", Epic),
    Locked(LunarLanderId, "Lunar Lander", "Land on the Moon", "\U{1F319}", Legendary),
    Locked(PerfectLandingId, "Perfect Landing", "Land with less than 1 m/s vertical velocity", "\U{1F3AF}", Rare),
    Locked(FuelEfficiencyId, "Fuel Efficient", "Complete a mission with 30% fuel remaining", "\U{26FD}", Common),
    Locked(SpeedDemonId, "Speed Demon", "Reach 10,000 m/s", "\U{26A1}", Rare),
    Locked(SurvivorId, "Survivor", "Complete a mission with hull integrity below 20%", "\U{1F4A5}", Epic),
    Locked(VeteranId, "Veteran Pilot", "Complete 10 missions", "\U{1F396}\U{FE0F}", Epic),
    Locked(MillionaireId, "Space Millionaire", "Earn 1,000,000 credits", "\U{1F4B0}", Legendary),
    Locked(OrbitalVeteranId, "Orbital Veteran", "Spend 10 hours in orbit", "\U{23F1}\U{FE0F}", Epic)
  ]

  /** Fuel remaining, as a percentage of capacity, is at least `pct`. A zero
      capacity makes the percentage infinite when fuel is positive and
      not-a-number (failing every comparison) otherwise. */
  predicate FuelPercentAtLeast(r: RocketState, pct: real)
  {
    if r.maxFuel != 0.0 then r.fuel / r.maxFuel * 100.0 >= pct else r.fuel > 0.0
  }

  /** As `FuelPercentAtLeast`, with a strict comparison. */
  predicate FuelPercentAbove(r: RocketState, pct: real)
  {
    if r.maxFuel != 0.0 then r.fuel / r.maxFuel * 100.0 > pct else r.fuel > 0.0
  }

  /** Whether the achievement with the id is earned in the state; false for
      every id the catalog does not know. */
  function CheckAchievement(id: string, s: GameState): (earned: bool)
    ensures earned ==> KindOf(id).Some?
  {
    var rocket := s.rocket;
    if id == FirstFlightId then |s.completedMissions| >= 1
    else if id == KarmanLineId then rocket.altitude >= 100000.0
    else if id == OrbitalId then s.missionPhase == Orbit && rocket.speed >= 7800.0
    else if id == DockingMasterId then rocket.isDocked
    else if id == LunarLanderId then s.missionPhase == Landing && rocket.altitude == 0.0
    else if id == PerfectLandingId then rocket.isLanded && rocket.velocity.y < 1.0
    else if id == FuelEfficiencyId then FuelPercentAtLeast(rocket, 30.0)
    else if id == SpeedDemonId then rocket.speed >= 10000.0
    else if id == SurvivorId then rocket.hullIntegrity < 20.0 && rocket.hullIntegrity > 0.0
    else if id == VeteranId then |s.completedMissions| >= 10
    else if id == MillionaireId then s.credits >= 1000000
    else if id == OrbitalVeteranId then s.gameTime >= 36000
    else false
  }

  /** The catalog's achievements as an enumeration. */
  datatype Kind =
    | FirstFlight | KarmanLine | Orbital | DockingMaster | LunarLander | PerfectLanding
    | FuelEfficiency | SpeedDemon | Survivor | Veteran | Millionaire | OrbitalVeteran

  function IdOf(k: Kind): string
  {
    match k
    case FirstFlight => FirstFlightId
    case KarmanLine => KarmanLineId
    case Orbital => OrbitalId
    case DockingMaster => DockingMasterId
    case LunarLander => LunarLanderId
    case PerfectLanding => PerfectLandingId
    case FuelEfficiency => FuelEfficiencyId
    case SpeedDemon => SpeedDemonId
    case Survivor => SurvivorId
    case Veteran => VeteranId
    case Millionaire => MillionaireId
    case OrbitalVeteran => OrbitalVeteranId
  }

  /** The kind whose id is `id`, if any. */
  function KindOf(id: string): (k: Option<Kind>)
    ensures k.Some? ==> IdOf(k.value) == id
    ensures k.None? ==> forall kind: Kind :: IdOf(kind) != id
  {
    if id == FirstFlightId then Some(FirstFlight)
    else if id == KarmanLineId then Some(KarmanLine)
    else if id == OrbitalId then Some(Orbital)
    else if id == DockingMasterId then Some(DockingMaster)
    else if id == LunarLanderId then Some(LunarLander)
    else if id == PerfectLandingId then Some(PerfectLanding)
    else if id == FuelEfficiencyId then Some(FuelEfficiency)
    else if id == SpeedDemonId then Some(SpeedDemon)
    else if id == SurvivorId then Some(Survivor)
    else if id == VeteranId then Some(Veteran)
    else if id == MillionaireId then Some(Millionaire)
    else if id == OrbitalVeteranId then Some(OrbitalVeteran)
    else None
  }

  /** Where each kind sits in the catalog. */
  function CatalogIndex(k: Kind): (i: nat)
    ensures i < |Catalog| && Catalog[i].id == IdOf(k)
  {
    match k
    case FirstFlight => 0
    case KarmanLine => 1
    case Orbital => 2
    case DockingMaster => 3
    case LunarLander => 4
    case PerfectLanding => 5
    case FuelEfficiency => 6
    case SpeedDemon => 7
    case Survivor => 8
    case Veteran => 9
    case Millionaire => 10
    case OrbitalVeteran => 11
  }

  /** Some catalog entry carries the id. */
  predicate Listed(id: string)
  {
    exists i :: 0 <= i < |Catalog| && Catalog[i].id == id
  }

  lemma CatalogCoversKinds()
    ensures forall k: Kind :: Listed(IdOf(k))
  {
    forall k: Kind
      ensures Listed(IdOf(k))
    {
      var i := CatalogIndex(k);
      assert 0 <= i < |Catalog| && Catalog[i].id == IdOf(k);
    }
  }

  /** The catalog lists each kind exactly once, in declaration order, all locked. */
  lemma CatalogShape()
    ensures |Catalog| == 12
    ensures forall i, j :: 0 <= i < j < |Catalog| ==> Catalog[i].id != Catalog[j].id
    ensures forall i :: 0 <= i < |Catalog| ==> !Catalog[i].unlocked && Catalog[i].unlockedAt.None?
    ensures forall k: Kind :: Listed(IdOf(k))
    ensures forall i :: 0 <= i < |Catalog| ==> KindOf(Catalog[i].id).Some?
  {
    CatalogCoversKinds();
  }

  /** The conditions that read the ledger, docking and fuel. Fuel efficiency
      divides by the capacity: with a zero capacity it is earned exactly when
      some fuel is left. */
  lemma LedgerDockingAndFuelRules(s: GameState)
    ensures CheckAchievement(FirstFlightId, s) <==> |s.completedMissions| >= 1
    ensures CheckAchievement(VeteranId, s) <==> |s.completedMissions| >= 10
    ensures CheckAchievement(DockingMasterId, s) <==> s.rocket.isDocked
    ensures s.rocket.maxFuel != 0.0 ==>
              (CheckAchievement(FuelEfficiencyId, s) <==> s.rocket.fuel / s.rocket.maxFuel * 100.0 >= 30.0)
    ensures s.rocket.maxFuel > 0.0 ==>
              (CheckAchievement(FuelEfficiencyId, s) <==> 10.0 * s.rocket.fuel >= 3.0 * s.rocket.maxFuel)
    ensures s.rocket.maxFuel == 0.0 ==> (CheckAchievement(FuelEfficiencyId, s) <==> s.rocket.fuel > 0.0)
  {
  }

  /** Threshold achievements, with the comparisons the source uses. */
  lemma ThresholdRules(s: GameState)
    ensures CheckAchievement(KarmanLineId, s) <==> s.rocket.altitude >= 100000.0
    ensures CheckAchievement(SpeedDemonId, s) <==> s.rocket.speed >= 10000.0
    ensures CheckAchievement(OrbitalId, s) <==> s.missionPhase == Orbit && s.rocket.speed >= 7800.0
    ensures CheckAchievement(LunarLanderId, s) <==> s.missionPhase == Landing && s.rocket.altitude == 0.0
    ensures CheckAchievement(SurvivorId, s) <==> 0.0 < s.rocket.hullIntegrity < 20.0
    ensures CheckAchievement(MillionaireId, s) <==> s.credits >= 1000000
    ensures CheckAchievement(OrbitalVeteranId, s) <==> s.gameTime >= 36000
  {
  }

  /** Perfect landing compares the SIGNED vertical velocity: any landed state
      moving downward qualifies, however fast. */
  lemma PerfectLandingIsSigned(s: GameState)
    ensures CheckAchievement(PerfectLandingId, s) <==> s.rocket.isLanded && s.rocket.velocity.y < 1.0
    ensures s.rocket.isLanded && s.rocket.velocity.y <= -1000.0 ==> CheckAchievement(PerfectLandingId, s)
  {
  }

  /** Survivor needs the hull strictly between the bounds. */
  lemma SurvivorBoundsStrict(s: GameState)
    requires s.rocket.hullIntegrity == 0.0 || s.rocket.hullIntegrity == 20.0
    ensures !CheckAchievement(SurvivorId, s)
  {
  }

  lemma VeteranImpliesFirstFlight(s: GameState)
    ensures CheckAchievement(VeteranId, s) ==> CheckAchievement(FirstFlightId, s)
  {
  }

  lemma UnknownIdNeverHolds(id: string, s: GameState)
    requires forall i :: 0 <= i < |Catalog| ==> Catalog[i].id != id
    ensures !CheckAchievement(id, s)
  {
    CatalogShape();
  }
}

=== FILE: app.dfy ===
/**
 The application shell: which screen is shown, the once-a-second game-logic
 tick (game clock, achievement scan, mission-phase guards, hull failure),
 and the retry / quit / continue buttons. The timer that drives the tick is
 left out; `LogicTick` is one firing of it, with `now` the wall clock.
 */
module App {
  import opened GameTypes
  import Store
  import AchievementRules
  import MissionSelect

  datatype Screen = MenuScreen | MissionScreen | PausedScreen | CompleteScreen | FailedScreen | AchievementsScreen

  datatype AppState = AppState(store: GameState, screen: Screen)

  /** Start-up: the store is given the mission catalog and the achievement catalog. */
  function Boot(missions: seq<Mission>): (app: AppState)
    ensures app.screen == MenuScreen
    ensures app.store.availableMissions == missions
    ensures app.store.achievements == AchievementRules.Catalog
    ensures app.store == Store.InitialState.(availableMissions := missions, achievements := AchievementRules.Catalog)
  {
    var store := Store.SetAvailableMissions(Store.InitialState, missions);
    AppState(Store.SetAchievements(store, AchievementRules.Catalog), MenuScreen)
  }

  /** Whether the tick runs at all. */
  predicate Active(s: GameState)
  {
    s.missionStatus == InProgress && !s.isPaused
  }

  // ----- Achievement scan -----

  /** An entry the scan unlocks: not flagged unlocked, not one of the two
      milestone ids the scan skips, and its condition holds. */
  predicate Fires(e: Achievement, snapshot: GameState)
  {
    && !e.unlocked
    && e.id != AchievementRules.FirstFlightId
    && e.id != AchievementRules.VeteranId
    && AchievementRules.CheckAchievement(e.id, snapshot)
  }

  predicate FiresId(entries: seq<Achievement>, id: string, snapshot: GameState)
  {
    exists j :: 0 <= j < |entries| && entries[j].id == id && Fires(entries[j], snapshot)
  }

  /** Walks `entries` in order and unlocks, in the store, every entry that
      fires on the snapshot. */
  function Scan(store: GameState, entries: seq<Achievement>, snapshot: GameState, now: nat): (r: GameState)
    ensures |r.achievements| == |store.achievements|
    ensures forall i :: 0 <= i < |store.achievements| ==>
              r.achievements[i] ==
                if FiresId(entries, store.achievements[i].id, snapshot)
                then store.achievements[i].(unlocked := true, unlockedAt := Some(now))
                else store.achievements[i]
    ensures r == store.(achievements := r.achievements)
    decreases |entries|
  {
    if |entries| == 0 then store
    else
      var e := entries[0];
      var next := if Fires(e, snapshot) then Store.UnlockAchievement(store, e.id, now) else store;
      var r := Scan(next, entries[1..], snapshot, now);
      assert forall id :: FiresId(entries, id, snapshot) <==>
               (e.id == id && Fires(e, snapshot)) || FiresId(entries[1..], id, snapshot) by {
        forall id
          ensures FiresId(entries, id, snapshot) ==>
                    (e.id == id && Fires(e, snapshot)) || FiresId(entries[1..], id, snapshot)
        {
          if FiresId(entries, id, snapshot) {
            var j :| 0 <= j < |entries| && entries[j].id == id && Fires(entries[j], snapshot);
            if j > 0 {
              assert entries[1..][j - 1] == entries[j];
            }
          }
        }
        forall id | FiresId(entries[1..], id, snapshot)
          ensures FiresId(entries, id, snapshot)
        {
          var j :| 0 <= j < |entries[1..]| && entries[1..][j].id == id && Fires(entries[1..][j], snapshot);
          assert entries[j + 1] == entries[1..][j];
        }
      }
      r
  }

  /** Scanning the module catalog: since its entries are never flagged
      unlocked, every satisfied achievement other than the two milestones is
      (re)unlocked, and its time stamp refreshed, on every tick. */
  lemma {:induction false} CatalogScanFires(id: string, snapshot: GameState)
    ensures FiresId(AchievementRules.Catalog, id, snapshot) <==>
              && id != AchievementRules.FirstFlightId
              && id != AchievementRules.VeteranId
              && AchievementRules.CheckAchievement(id, snapshot)
  {
    AchievementRules.CatalogShape();
    if && id != AchievementRules.FirstFlightId
       && id != AchievementRules.VeteranId
       && AchievementRules.CheckAchievement(id, snapshot)
    {
      var k := AchievementRules.KindOf(id).value;
      var j :| 0 <= j < |AchievementRules.Catalog| && AchievementRules.Catalog[j].id == AchievementRules.IdOf(k);
      assert Fires(AchievementRules.Catalog[j], snapshot);
    }
  }

  // ----- Mission phase guards -----

  /** The phase that follows `p` in flight order, if any. */
  function Successor(p: MissionPhase): Option<MissionPhase>
  {
    match p
    case Launch => Some(Ascent)
    case Ascent => Some(OrbitInsertion)
    case OrbitInsertion => Some(Orbit)
    case Orbit => Some(ReEntry)
    case ReEntry => Some(Landing)
    case Landing => Some(MissionComplete)
    case _ => None
  }

  /** The condition for leaving the current phase, read from the snapshot. */
  predicate ReadyToAdvance(s: GameState)
  {
    match s.missionPhase
    case Launch => s.rocket.altitude > 1000.0
    case Ascent => s.rocket.altitude > 100000.0
    case OrbitInsertion => s.rocket.speed >= 7800.0
    case Orbit => s.gameTime > 100
    case ReEntry => s.rocket.altitude < 50000.0
    case Landing => s.rocket.isLanded
    case _ => false
  }

  /** The guard chain: the first matching guard moves the phase on, and
      LANDING completes the mission and shows the completion screen. */
  function PhaseStep(store: GameState, snapshot: GameState, screen: Screen): (r: (GameState, Screen))
  {
    var rocket := snapshot.rocket;
    var phase := snapshot.missionPhase;
    if phase == Launch && rocket.altitude > 1000.0 then (Store.SetMissionPhase(store, Ascent), screen)
    else if phase == Ascent && rocket.altitude > 100000.0 then (Store.SetMissionPhase(store, OrbitInsertion), screen)
    else if phase == OrbitInsertion && rocket.speed >= 7800.0 then (Store.SetMissionPhase(store, Orbit), screen)
    else if phase == Orbit && snapshot.gameTime > 100 then (Store.SetMissionPhase(store, ReEntry), screen)
    else if phase == ReEntry && rocket.altitude < 50000.0 then (Store.SetMissionPhase(store, Landing), screen)
    else if phase == Landing && rocket.isLanded then (Store.CompleteMission(store), CompleteScreen)
    else (store, screen)
  }

  /** One firing of the one-second timer. All guards read the snapshot taken
      when the tick starts; the store they write to already has the clock
      advanced and the scan's unlocks applied. */
  function LogicTick(app: AppState, now: nat): (r: AppState)
    ensures !Active(app.store) ==> r == app
    ensures Active(app.store) ==> r.store.gameTime == app.store.gameTime + 1
    ensures Active(app.store) ==>
              var s := app.store;
              && |r.store.achievements| == |s.achievements|
              && forall i :: 0 <= i < |s.achievements| ==>
                   r.store.achievements[i] ==
                     if FiresId(AchievementRules.Catalog, s.achievements[i].id, s)
                     then s.achievements[i].(unlocked := true, unlockedAt := Some(now))
                     else s.achievements[i]
    ensures Active(app.store) && app.store.rocket.hullIntegrity <= 0.0 ==>
              && r.store.missionPhase == MissionFailed
              && r.store.missionStatus == Failed
              && r.screen == FailedScreen
    ensures Active(app.store) && app.store.rocket.hullIntegrity > 0.0 ==>
              var s := app.store;
              var completes := s.missionPhase == Landing && ReadyToAdvance(s) && s.currentMission.Some?;
              && r.store.missionPhase ==
                   (if ReadyToAdvance(s) && (s.missionPhase != Landing || completes)
                    then Successor(s.missionPhase).value else s.missionPhase)
              && r.store.missionStatus == (if completes then Completed else s.missionStatus)
              && r.screen == (if s.missionPhase == Landing && ReadyToAdvance(s) then CompleteScreen else app.screen)
    ensures Active(app.store) ==>
              var s := app.store;
              var completes := s.missionPhase == Landing && ReadyToAdvance(s) && s.currentMission.Some?;
              && (completes ==>
                    var m := s.currentMission.value;
                    && r.store.completedMissions == s.completedMissions + [m.id]
                    && r.store.credits == s.credits + m.rewards.credits
                    && r.store.experience == s.experience + m.rewards.experience
                    && Store.IsLevelFor(r.store.level, r.store.experience))
              && (!completes ==> SameLedger(s, r.store))
              && r.store.currentMission == s.currentMission
              && r.store.rocket == s.rocket
              && r.store.telemetry == s.telemetry
              && r.store.isPaused == s.isPaused
              && r.store.availableMissions == s.availableMissions
              && r.store.environment == s.environment
              && r.store == s.(gameTime := r.store.gameTime, achievements := r.store.achievements,
                               missionPhase := r.store.missionPhase, missionStatus := r.store.missionStatus,
                               completedMissions := r.store.completedMissions, credits := r.store.credits,
                               experience := r.store.experience, level := r.store.level)
  {
    var state := app.store;
    if !Active(state) then app
    else
      var ticked := state.(gameTime := state.gameTime + 1);
      var scanned := Scan(ticked, AchievementRules.Catalog, state, now);
      var (stepped, screen) := PhaseStep(scanned, state, app.screen);
      if state.rocket.hullIntegrity <= 0.0 then AppState(Store.FailMission(stepped), FailedScreen)
      else AppState(stepped, screen)
  }

  /** A tick changes the phase at most once, and only to the next phase in
      flight order or to MISSION_FAILED. */
  lemma AtMostOneTransition(app: AppState, now: nat)
    ensures var p := app.store.missionPhase;
            var q := LogicTick(app, now).store.missionPhase;
            q == p || Some(q) == Successor(p) || q == MissionFailed
  {
  }

  /** PRE_FLIGHT and DOCKING have no guard: only a hull failure leaves them. */
  lemma NoGuardOutOfPreFlightOrDocking(app: AppState, now: nat)
    requires app.store.missionPhase == PreFlight || app.store.missionPhase == Docking
    ensures var q := LogicTick(app, now).store.missionPhase;
            q == app.store.missionPhase || (q == MissionFailed && app.store.rocket.hullIntegrity <= 0.0)
  {
  }

  /** The ORBIT guard reads the clock before the increment: at 100 seconds the
      tick leaves the phase alone although the clock reads 101 afterwards. */
  lemma OrbitGuardReadsSnapshot(app: AppState, now: nat)
    requires Active(app.store) && app.store.missionPhase == Orbit
    requires app.store.gameTime == 100 && app.store.rocket.hullIntegrity > 0.0
    ensures LogicTick(app, now).store.missionPhase == Orbit
    ensures LogicTick(app, now).store.gameTime == 101
  {
  }

  /** Landed in LANDING with a destroyed hull: the mission is first recorded as
      completed and rewarded, then marked failed. */
  lemma CompletionThenFailure(app: AppState, now: nat)
    requires Active(app.store) && app.store.missionPhase == Landing && app.store.rocket.isLanded
    requires app.store.rocket.hullIntegrity <= 0.0 && app.store.currentMission.Some?
    ensures var s := app.store;
            var r := LogicTick(app, now);
            && r.store.completedMissions == s.completedMissions + [s.currentMission.value.id]
            && r.store.credits == s.credits + s.currentMission.value.rewards.credits
            && r.store.missionStatus == Failed
            && r.store.missionPhase == MissionFailed
            && r.screen == FailedScreen
  {
  }

  /** Once a tick has ended the mission, later ticks do nothing. */
  lemma TerminalTicksAreNoOps(app: AppState, now: nat, later: nat)
    requires LogicTick(app, now).store.missionStatus in {Completed, Failed}
    ensures LogicTick(LogicTick(app, now), later) == LogicTick(app, now)
  {
  }

  /** The scan never unlocks the two milestone achievements. */
  lemma MilestonesNeverScanned(app: AppState, now: nat, i: nat)
    requires i < |app.store.achievements|
    requires app.store.achievements[i].id in {AchievementRules.FirstFlightId, AchievementRules.VeteranId}
    ensures LogicTick(app, now).store.achievements[i] == app.store.achievements[i]
  {
    if Active(app.store) {
      CatalogScanFires(app.store.achievements[i].id, app.store);
    }
  }

  /** Every satisfied achievement other than the two milestones is unlocked again
      on every active tick, so its time stamp becomes the tick's clock reading even
      if it was unlocked before. */
  lemma SatisfiedAchievementRestamped(app: AppState, now: nat, i: nat)
    requires Active(app.store) && i < |app.store.achievements|
    requires app.store.achievements[i].id !in {AchievementRules.FirstFlightId, AchievementRules.VeteranId}
    requires AchievementRules.CheckAchievement(app.store.achievements[i].id, app.store)
    ensures LogicTick(app, now).store.achievements[i].unlocked
    ensures LogicTick(app, now).store.achievements[i].unlockedAt == Some(now)
  {
    CatalogScanFires(app.store.achievements[i].id, app.store);
  }

  // ----- Buttons -----

  /** Retry: mission-scoped state back to the pad, ledger kept, scene shown. */
  function HandleRetry(app: AppState): (r: AppState)
    ensures r.screen == MissionScreen
    ensures r.store.rocket == Store.InitialRocket && r.store.telemetry == [] && r.store.gameTime == 0
    ensures r.store.missionPhase == PreFlight && r.store.missionStatus == NotStarted
    ensures SameLedger(app.store, r.store) && r.store.currentMission == app.store.currentMission
    ensures && r.store.achievements == app.store.achievements
            && r.store.availableMissions == app.store.availableMissions
            && r.store.isPaused == app.store.isPaused
            && r.store.environment == app.store.environment
    ensures r.store == app.store.(rocket := Store.InitialRocket, telemetry := [], gameTime := 0,
                                  missionPhase := PreFlight, missionStatus := NotStarted)
  {
    AppState(Store.ResetMission(app.store), MissionScreen)
  }

  /** Quit: the same reset as retry, then the menu. */
  function HandleQuit(app: AppState): (r: AppState)
    ensures r.screen == MenuScreen
    ensures r.store == HandleRetry(app).store
    ensures r.store.missionStatus == NotStarted && SameLedger(app.store, r.store)
  {
    AppState(Store.ResetMission(app.store), MenuScreen)
  }

  /** The failure screen's retry resets the store, then the shell resets again. */
  function FailedScreenRetry(app: AppState): (r: AppState)
    ensures r == HandleRetry(app)
  {
    Store.ResetIdempotent(app.store);
    HandleRetry(app.(store := Store.ResetMission(app.store)))
  }

  /** The completion screen's continue button: complete the mission, then quit. */
  function Continue(app: AppState): (r: AppState)
    ensures r.screen == MenuScreen
    ensures app.store.currentMission.Some? ==>
              r.store.completedMissions == app.store.completedMissions + [app.store.currentMission.value.id]
    ensures app.store.currentMission.Some? ==>
              var m := app.store.currentMission.value;
              && r.store.credits == app.store.credits + m.rewards.credits
              && r.store.experience == app.store.experience + m.rewards.experience
              && Store.IsLevelFor(r.store.level, r.store.experience)
    ensures app.store.currentMission.None? ==> SameLedger(app.store, r.store)
    ensures r.store.missionStatus == NotStarted && r.store.missionPhase == PreFlight
    ensures r.store.rocket == Store.InitialRocket && r.store.telemetry == [] && r.store.gameTime == 0
    ensures r.store == app.store.(rocket := Store.InitialRocket, telemetry := [], gameTime := 0,
                                  missionPhase := PreFlight, missionStatus := NotStarted,
                                  completedMissions := r.store.completedMissions, credits := r.store.credits,
                                  experience := r.store.experience, level := r.store.level)
  {
    HandleQuit(app.(store := Store.CompleteMission(app.store)))
  }

  /** The tick already completed the mission when the rocket landed; continue
      completes it again, so the mission is recorded twice and paid twice. */
  lemma ContinueAfterLandingPaysTwice(app: AppState, now: nat)
    requires Active(app.store) && app.store.missionPhase == Landing && app.store.rocket.isLanded
    requires app.store.rocket.hullIntegrity > 0.0 && app.store.currentMission.Some?
    ensures var m := app.store.currentMission.value;
            var r := Continue(LogicTick(app, now));
            && LogicTick(app, now).screen == CompleteScreen
            && r.store.completedMissions == app.store.completedMissions + [m.id, m.id]
            && r.store.credits == app.store.credits + 2 * m.rewards.credits
            && r.store.experience == app.store.experience + 2 * m.rewards.experience
  {
    var m := app.store.currentMission.value;
    assert app.store.completedMissions + [m.id] + [m.id] == app.store.completedMissions + [m.id, m.id];
  }

  /** Choosing a mission on the select screen starts it and shows the scene. */
  function SelectMission(app: AppState, missionId: string): (r: AppState)
    ensures r.screen == MissionScreen
    ensures SameLedger(app.store, r.store)
    ensures (exists i :: 0 <= i < |app.store.availableMissions| && app.store.availableMissions[i].id == missionId) ==>
              && r.store.currentMission.Some? && r.store.currentMission.value.id == missionId
              && Store.FreshStart(Store.FindMission(app.store.availableMissions, missionId).value,
                                  r.store.currentMission.value)
              && r.store.missionStatus == InProgress && r.store.missionPhase == PreFlight
              && r.store.rocket == Store.InitialRocket && r.store.telemetry == [] && r.store.gameTime == 0
              && r.store == app.store.(currentMission := r.store.currentMission, missionPhase := PreFlight,
                                       missionStatus := InProgress, rocket := Store.InitialRocket,
                                       telemetry := [], gameTime := 0)
    ensures (forall i :: 0 <= i < |app.store.availableMissions| ==> app.store.availableMissions[i].id != missionId) ==>
              r.store == app.store
  {
    AppState(Store.StartMission(app.store, missionId), MissionScreen)
  }

  /** Every mission the select screen offers starts when chosen. The screen
      filters the module's mission catalog while the start searches the store's
      list; the two agree because booting is the only place that sets the
      store's list, which the `catalog` parameter and its precondition state. */
  lemma OfferedMissionStarts(app: AppState, catalog: seq<Mission>, m: Mission)
    requires app.store.availableMissions == catalog
    requires m in MissionSelect.AvailableMissions(catalog, app.store.completedMissions)
    ensures var r := SelectMission(app, m.id).store;
            && r.currentMission.Some? && r.currentMission.value.id == m.id
            && r.missionStatus == InProgress && r.missionPhase == PreFlight
            && r.completedMissions == app.store.completedMissions
  {
    var i :| 0 <= i < |app.store.availableMissions| && app.store.availableMissions[i] == m;
  }
}

=== FILE: cockpit.dfy ===
/**
 The cockpit's mission clock: whole seconds shown as hours, minutes and
 seconds, each zero-padded to two digits and joined by colons. Hours are
 not wrapped at 24.
 */
module Cockpit {
  import opened Text
  import opened GameTypes

  /** Reads a clock string back: three digit fields separated by colons, the
      last two below 60. */
  function ParseClock(s: string): (r: Option<nat>)
  {
    var parts := Split(s, ':');
    if |parts| == 3 && AllDigits(parts[0]) && AllDigits(parts[1]) && AllDigits(parts[2])
       && ValueOf(parts[1]) < 60 && ValueOf(parts[2]) < 60
    then Some(ValueOf(parts[0]) * 3600 + ValueOf(parts[1]) * 60 + ValueOf(parts[2]))
    else None
  }

  /** Hours, minutes and seconds of a whole number of seconds. */
  lemma ClockDivision(seconds: nat)
    ensures var hrs := seconds / 3600;
            var mins := (seconds % 3600) / 60;
            var secs := seconds % 60;
            && hrs * 3600 + mins * 60 + secs == seconds
            && mins < 60 && secs < 60
            && (seconds < 360000 ==> hrs < 100)
  {
    var rest := seconds % 3600;
    assert seconds == seconds / 3600 * 3600 + rest;
    assert rest == rest / 60 * 60 + rest % 60;
    assert rest % 60 == seconds % 60 by {
      assert seconds == (seconds / 3600 * 60 + rest / 60) * 60 + rest % 60;
    }
  }

  /** The clock text that `h`, `m` and `s` make. */
  function Clock(h: string, m: string, s: string): string
  {
    h + ":" + m + ":" + s
  }

  /** Hours, minutes and seconds, padded and joined, split back into fields
      that read as those numbers. */
  lemma ClockFields(hrs: nat, mins: nat, secs: nat, h: string, m: string, s: string)
    requires mins < 60 && secs < 60
    requires h == ZeroPadded(hrs, 2) && m == ZeroPadded(mins, 2) && s == ZeroPadded(secs, 2)
    ensures var parts := Split(Clock(h, m, s), ':');
            && parts == [h, m, s]
            && AllDigits(h) && AllDigits(m) && AllDigits(s)
            && |h| >= 2 && |m| == 2 && |s| == 2
            && h == PadStart(Decimal(hrs), 2, '0')
            && ValueOf(h) == hrs && ValueOf(m) == mins && ValueOf(s) == secs
    ensures hrs < 100 ==> |Clock(h, m, s)| == 8
  {
    JoinSplitsInThree(h, m, s);
    assert |Clock(h, m, s)| == |h| + |m| + |s| + 2;
  }

  function FormatTime(seconds: nat): (r: string)
    ensures var parts := Split(r, ':');
            && |parts| == 3
            && AllDigits(parts[0]) && AllDigits(parts[1]) && AllDigits(parts[2])
            && |parts[0]| >= 2 && |parts[1]| == 2 && |parts[2]| == 2
            && parts[0] == PadStart(Decimal(seconds / 3600), 2, '0')
            && ValueOf(parts[0]) * 3600 + ValueOf(parts[1]) * 60 + ValueOf(parts[2]) == seconds
            && ValueOf(parts[1]) < 60 && ValueOf(parts[2]) < 60
            && ValueOf(parts[0]) == seconds / 3600
    ensures seconds < 360000 ==> |r| == 8
  {
    var hrs := seconds / 3600;
    var mins := (seconds % 3600) / 60;
    var secs := seconds % 60;
    ClockDivision(seconds);
    var h := ZeroPadded(hrs, 2);
    var m := ZeroPadded(mins, 2);
    var s := ZeroPadded(secs, 2);
    ClockFields(hrs, mins, secs, h, m, s);
    Clock(h, m, s)
  }

  /** Three colon-free fields joined by colons split back into themselves. */
  lemma JoinSplitsInThree(h: string, m: string, s: string)
    requires forall j :: 0 <= j < |h| ==> h[j] != ':'
    requires forall j :: 0 <= j < |m| ==> m[j] != ':'
    requires forall j :: 0 <= j < |s| ==> s[j] != ':'
    ensures Split(Clock(h, m, s), ':') == [h, m, s]
  {
    assert h + ":" + m + ":" + s == h + [':'] + (m + [':'] + s);
    SplitJoin(h, ':', m + [':'] + s);
    SplitJoin(m, ':', s);
    SplitSingle(s, ':');
  }

  /** The clock string always reads back as the seconds it shows. */
  lemma FormatTimeRoundTrip(seconds: nat)
    ensures ParseClock(FormatTime(seconds)) == Some(seconds)
  {
  }

  /** Two clock strings are equal exactly when the seconds are. */
  lemma FormatTimeInjective(a: nat, b: nat)
    ensures FormatTime(a) == FormatTime(b) <==> a == b
  {
    if FormatTime(a) == FormatTime(b) {
      FormatTimeRoundTrip(a);
      FormatTimeRoundTrip(b);
    }
  }

  lemma FormatTimeAtZero()
    ensures FormatTime(0) == "00:00:00"
  {
    assert Decimal(0) == "0";
    assert ZeroPadded(0, 2) == "00";
    assert Clock("00", "00", "00") == "00:00:00";
  }
}

=== FILE: game_scene.dfy ===
/**
 The flight scene's discrete inputs: keyboard commands (engine toggle,
 angular-rate keys, throttle steps, pause) and the bookkeeping that follows
 each physics frame (launch auto-throttle and the telemetry gate). The
 physics step itself is an input: the rocket it produced is a parameter.
 */
module GameScene {
  import opened GameTypes
  import opened Text
  import Store

  const ThrottleStep: real := 0.1
  const TurnRate: real := 0.5

  datatype Axis = PitchAxis | YawAxis | RollAxis

  function Component(v: Vec3, axis: Axis): real
  {
    match axis
    case PitchAxis => v.x
    case YawAxis => v.y
    case RollAxis => v.z
  }

  /** `v` with one component replaced. */
  function WithComponent(v: Vec3, axis: Axis, value: real): (w: Vec3)
    ensures Component(w, axis) == value
    ensures forall other: Axis :: other != axis ==> Component(w, other) == Component(v, other)
  {
    match axis
    case PitchAxis => v.(x := value)
    case YawAxis => v.(y := value)
    case RollAxis => v.(z := value)
  }

  /** Math.min(1, x). */
  function MinOf1(x: real): real
  {
    if x < 1.0 then x else 1.0
  }

  /** Math.max(0, x). */
  function MaxOf0(x: real): real
  {
    if x > 0.0 then x else 0.0
  }

  datatype KeyCommand =
    | ToggleEngine
    | Turn(axis: Axis, rate: real)
    | ThrottleUp
    | ThrottleDown
    | TogglePauseKey

  /** The command bound to an already lower-cased key name, if any. */
  function KeyDownCommand(k: string): Option<KeyCommand>
  {
    if k == " " then Some(ToggleEngine)
    else if k == "w" || k == "arrowup" then Some(Turn(PitchAxis, TurnRate))
    else if k == "s" || k == "arrowdown" then Some(Turn(PitchAxis, -TurnRate))
    else if k == "a" || k == "arrowleft" then Some(Turn(YawAxis, TurnRate))
    else if k == "d" || k == "arrowright" then Some(Turn(YawAxis, -TurnRate))
    else if k == "q" then Some(Turn(RollAxis, TurnRate))
    else if k == "e" then Some(Turn(RollAxis, -TurnRate))
    else if k == "shift" then Some(ThrottleUp)
    else if k == "control" then Some(ThrottleDown)
    else if k == "p" then Some(TogglePauseKey)
    else None
  }

  /** The axis whose rate a released key resets, if any. */
  function KeyUpAxis(k: string): Option<Axis>
  {
    if k == "w" || k == "s" || k == "arrowup" || k == "arrowdown" then Some(PitchAxis)
    else if k == "a" || k == "d" || k == "arrowleft" || k == "arrowright" then Some(YawAxis)
    else if k == "q" || k == "e" then Some(RollAxis)
    else None
  }

  function Apply(s: GameState, cmd: KeyCommand): (r: GameState)
  {
    var rocket := s.rocket;
    match cmd
    case ToggleEngine => Store.SetEngineOn(s, !rocket.isEngineOn)
    case Turn(axis, rate) =>
      Store.UpdateRocket(s, rocket.(angularVelocity := WithComponent(rocket.angularVelocity, axis, rate)))
    case ThrottleUp =>
      Store.UpdateRocket(s, rocket.(throttle := MinOf1(rocket.throttle + ThrottleStep)))
    case ThrottleDown =>
      Store.UpdateRocket(s, rocket.(throttle := MaxOf0(rocket.throttle - ThrottleStep)))
    case TogglePauseKey => Store.TogglePause(s)
  }

  /** A key press. Names are compared in lower case; unbound keys do nothing.
      Only the pause key touches anything outside the rocket; only the
      throttle keys touch the throttle, which they keep within [0, 1]; a
      turn key sets one angular-rate component and keeps the other two. */
  function HandleKeyDown(s: GameState, key: string): (r: GameState)
    ensures KeyDownCommand(ToLower(key)).None? ==> r == s
    ensures KeyDownCommand(ToLower(key)) != Some(TogglePauseKey) ==> r == s.(rocket := r.rocket)
    ensures KeyDownCommand(ToLower(key)) == Some(TogglePauseKey) ==> r == Store.TogglePause(s)
    ensures 0.0 <= s.rocket.throttle <= 1.0 ==> 0.0 <= r.rocket.throttle <= 1.0
    ensures KeyDownCommand(ToLower(key)) !in {Some(ThrottleUp), Some(ThrottleDown)} ==>
              r.rocket.throttle == s.rocket.throttle
    ensures KeyDownCommand(ToLower(key)) == Some(ThrottleUp) ==>
              r.rocket == s.rocket.(throttle := r.rocket.throttle) &&
              r.rocket.throttle <= 1.0 &&
              (r.rocket.throttle == 1.0 || r.rocket.throttle == s.rocket.throttle + ThrottleStep) &&
              r.rocket.throttle <= s.rocket.throttle + ThrottleStep
    ensures KeyDownCommand(ToLower(key)) == Some(ThrottleDown) ==>
              r.rocket == s.rocket.(throttle := r.rocket.throttle) &&
              r.rocket.throttle >= 0.0 &&
              (r.rocket.throttle == 0.0 || r.rocket.throttle == s.rocket.throttle - ThrottleStep) &&
              r.rocket.throttle >= s.rocket.throttle - ThrottleStep
    ensures KeyDownCommand(ToLower(key)) == Some(ToggleEngine) ==>
              r.rocket == s.rocket.(isEngineOn := !s.rocket.isEngineOn)
    ensures KeyDownCommand(ToLower(key)).Some? && KeyDownCommand(ToLower(key)).value.Turn? ==>
              var Turn(axis, rate) := KeyDownCommand(ToLower(key)).value;
              && r.rocket == s.rocket.(angularVelocity := r.rocket.angularVelocity)
              && Component(r.rocket.angularVelocity, axis) == rate
              && forall other: Axis :: other != axis ==>
                   Component(r.rocket.angularVelocity, other) == Component(s.rocket.angularVelocity, other)
  {
    match KeyDownCommand(ToLower(key))
    case None => s
    case Some(cmd) => Apply(s, cmd)
  }

  /** A key release zeroes the rate of the key's axis and nothing else. */
  function HandleKeyUp(s: GameState, key: string): (r: GameState)
    ensures KeyUpAxis(ToLower(key)).None? ==> r == s
    ensures KeyUpAxis(ToLower(key)).Some? ==>
              var axis := KeyUpAxis(ToLower(key)).value;
              && r == s.(rocket := s.rocket.(angularVelocity := r.rocket.angularVelocity))
              && Component(r.rocket.angularVelocity, axis) == 0.0
              && forall other: Axis :: other != axis ==>
                   Component(r.rocket.angularVelocity, other) == Component(s.rocket.angularVelocity, other)
  {
    match KeyUpAxis(ToLower(key))
    case None => s
    case Some(axis) =>
      Store.UpdateRocket(s, s.rocket.(angularVelocity := WithComponent(s.rocket.angularVelocity, axis, 0.0)))
  }

  lemma ToLowerIdempotent(key: string)
    ensures ToLower(ToLower(key)) == ToLower(key)
  {
  }

  /** Upper- and lower-case spellings of a key act alike. */
  lemma KeysCaseInsensitive(s: GameState, key: string)
    ensures HandleKeyDown(s, key) == HandleKeyDown(s, ToLower(key))
    ensures HandleKeyUp(s, key) == HandleKeyUp(s, ToLower(key))
  {
    ToLowerIdempotent(key);
  }

  /** Pressing space twice restores the engine state and the whole store. */
  lemma EngineToggleTwice(s: GameState)
    ensures HandleKeyDown(HandleKeyDown(s, " "), " ") == s
  {
    assert ToLower(" ") == " ";
  }

  /** Every key the press handler turns with is released onto the same axis. */
  lemma ReleaseMatchesPress(k: string)
    requires KeyDownCommand(k).Some? && KeyDownCommand(k).value.Turn?
    ensures KeyUpAxis(k) == Some(KeyDownCommand(k).value.axis)
  {
  }

  /** After the physics step: store the stepped rocket, force full throttle in
      LAUNCH above 1000 m (judged on the state the frame started from), then
      record a telemetry sample when the mission is in progress. */
  function AfterPhysicsFrame(s: GameState, stepped: RocketState, readings: Store.Readings): (r: GameState)
    ensures s.missionPhase == Launch && s.rocket.altitude > 1000.0 ==>
              r.rocket == stepped.(throttle := 1.0)
    ensures !(s.missionPhase == Launch && s.rocket.altitude > 1000.0) ==> r.rocket == stepped
    ensures s.missionStatus == InProgress ==>
              && |r.telemetry| == Store.Min(|s.telemetry|, Store.TelemetryKeep) + 1
              && r.telemetry[..|r.telemetry| - 1] == s.telemetry[|s.telemetry| - (|r.telemetry| - 1)..]
              && var last := r.telemetry[|r.telemetry| - 1];
                 && last.timestamp == s.gameTime
                 && last.altitude == r.rocket.altitude
                 && last.velocity == r.rocket.speed
                 && last.temperature == r.rocket.temperature
                 && last.hullIntegrity == r.rocket.hullIntegrity
                 && last.acceleration == readings.acceleration
                 && last.fuelLevel == readings.fuelLevel
                 && last.gForce == readings.gForce
    ensures s.missionStatus != InProgress ==> r.telemetry == s.telemetry
    ensures r == s.(rocket := r.rocket, telemetry := r.telemetry)
  {
    var s1 := Store.UpdateRocket(s, stepped);
    var s2 := if s.missionPhase == Launch && s.rocket.altitude > 1000.0 then Store.SetThrottle(s1, 1.0) else s1;
    if s2.missionStatus == InProgress then Store.UpdateTelemetry(s2, readings) else s2
  }

  /** The physics instance is built once from the store's first rocket and is
      never told about later store changes, so the rocket it steps does not
      depend on key presses. Every press is therefore overwritten by the next
      frame: the rocket after the frame is the same with or without it. */
  lemma KeyPressLostAtNextFrame(s: GameState, key: string, stepped: RocketState, readings: Store.Readings)
    ensures AfterPhysicsFrame(HandleKeyDown(s, key), stepped, readings).rocket ==
            AfterPhysicsFrame(s, stepped, readings).rocket
  {
    var pressed := HandleKeyDown(s, key);
    assert pressed.missionPhase == s.missionPhase;
    assert pressed.rocket.altitude == s.rocket.altitude;
  }

  /** Pausing with the P key stops telemetry: the frames that follow record nothing. */
  lemma PausedFramesRecordNothing(s: GameState, stepped: RocketState, readings: Store.Readings)
    requires !s.isPaused
    ensures var paused := HandleKeyDown(s, "p");
            && paused.isPaused
            && AfterPhysicsFrame(paused, stepped, readings).telemetry == s.telemetry
  {
    assert ToLower("p") == "p";
  }
}

=== FILE: mission_results.dfy ===
/**
 The end-of-mission screens: the score of a completed mission, the reason
 shown for a failed one, and the minutes:seconds mission time.
 */
module MissionResults {
  import opened GameTypes
  import opened Text
  import AchievementRules

  const BaseScore := 1000
  const ObjectiveScore := 500
  const FuelBonus := 500
  const HullBonus := 300
  const SmoothFlightBonus := 200

  /** The positions of the completed objectives. */
  function CompletedPositions(objectives: seq<MissionObjective>): set<int>
  {
    set i | 0 <= i < |objectives| && objectives[i].completed
  }

  /** How many objectives are marked completed. */
  function CountCompleted(objectives: seq<MissionObjective>): (n: nat)
    ensures n == |CompletedPositions(objectives)|
    ensures n <= |objectives|
    ensures n == |objectives| <==> forall i :: 0 <= i < |objectives| ==> objectives[i].completed
    ensures n == 0 <==> forall i :: 0 <= i < |objectives| ==> !objectives[i].completed
    decreases |objectives|
  {
    if |objectives| == 0 then 0
    else
      var last := |objectives| - 1;
      var init := objectives[..last];
      var rest := CountCompleted(init);
      CompletedPositionsOfPrefix(objectives);
      assert forall i :: 0 <= i < last ==> init[i] == objectives[i];
      rest + (if objectives[last].completed then 1 else 0)
  }

  /** The last objective adds its own position, if completed, to those of the others. */
  lemma CompletedPositionsOfPrefix(objectives: seq<MissionObjective>)
    requires |objectives| > 0
    ensures var last := |objectives| - 1;
            |CompletedPositions(objectives)| ==
              |CompletedPositions(objectives[..last])| + (if objectives[last].completed then 1 else 0)
  {
    var last := |objectives| - 1;
    var init := objectives[..last];
    assert forall i :: 0 <= i < last ==> init[i] == objectives[i];
    assert CompletedPositions(objectives) ==
           CompletedPositions(init) + (if objectives[last].completed then {last} else {});
    assert last !in CompletedPositions(init);
  }

  /** The largest g-force among the samples. */
  function MaxGForce(telemetry: seq<TelemetryData>): (g: real)
    requires |telemetry| > 0
    ensures forall i :: 0 <= i < |telemetry| ==> telemetry[i].gForce <= g
    ensures exists i :: 0 <= i < |telemetry| && telemetry[i].gForce == g
    decreases |telemetry|
  {
    if |telemetry| == 1 then telemetry[0].gForce
    else
      var rest := MaxGForce(telemetry[1..]);
      assert forall i :: 1 <= i < |telemetry| ==> telemetry[i] == telemetry[1..][i - 1];
      if telemetry[0].gForce >= rest then telemetry[0].gForce else rest
  }

  /** The mission score. With no current mission it is 0. Otherwise a base of
      1000, 500 per completed objective, and three bonuses, each on a strict
      threshold: more than 30% fuel left, hull above 80, and every recorded
      sample below 5 g (which needs at least one sample). */
  function CalculateScore(s: GameState): (score: int)
    ensures s.currentMission.None? ==> score == 0
    ensures s.currentMission.Some? ==>
              var objectives := s.currentMission.value.objectives;
              && score == BaseScore + ObjectiveScore * CountCompleted(objectives)
                          + (if AchievementRules.FuelPercentAbove(s.rocket, 30.0) then FuelBonus else 0)
                          + (if s.rocket.hullIntegrity > 80.0 then HullBonus else 0)
                          + (if |s.telemetry| > 0 && forall i :: 0 <= i < |s.telemetry| ==> s.telemetry[i].gForce < 5.0
                             then SmoothFlightBonus else 0)
              && 1000 <= score <= 2000 + 500 * |objectives|
  {
    match s.currentMission
    case None => 0
    case Some(mission) =>
      var score := BaseScore + CountCompleted(mission.objectives) * ObjectiveScore;
      var score := if AchievementRules.FuelPercentAbove(s.rocket, 30.0) then score + FuelBonus else score;
      var score := if s.rocket.hullIntegrity > 80.0 then score + HullBonus else score;
      if |s.telemetry| > 0 then
        var maxG := MaxGForce(s.telemetry);
        if maxG < 5.0 then score + SmoothFlightBonus else score
      else score
  }

  /** Exactly 30% fuel and exactly 80 hull earn neither bonus. */
  lemma ScoreThresholdsStrict(s: GameState)
    requires s.currentMission.Some?
    requires s.rocket.maxFuel > 0.0 && s.rocket.fuel * 100.0 == 30.0 * s.rocket.maxFuel
    requires s.rocket.hullIntegrity == 80.0
    requires s.telemetry == []
    ensures CalculateScore(s) == 1000 + 500 * CountCompleted(s.currentMission.value.objectives)
  {
    assert s.rocket.fuel / s.rocket.maxFuel * 100.0 == 30.0 by {
      assert s.rocket.fuel == 0.3 * s.rocket.maxFuel;
    }
  }

  datatype FailureReason =
    | CriticalHullFailure
    | FuelDepletion
    | OrbitalVelocityNotAchieved
    | ObjectivesNotMet

  function Message(reason: FailureReason): string
  {
    match reason
    case CriticalHullFailure => "Critical hull failure"
    case FuelDepletion => "Fuel depletion"
    case OrbitalVelocityNotAchieved => "Orbital velocity not achieved"
    case ObjectivesNotMet => "Mission objectives not met"
  }

  /** The first matching cause, tested in priority order. */
  function GetFailureReason(rocket: RocketState): (reason: FailureReason)
    ensures reason == CriticalHullFailure <==> rocket.hullIntegrity <= 0.0
    ensures reason == FuelDepletion <==>
              rocket.hullIntegrity > 0.0 && rocket.fuel <= 0.0 && rocket.altitude > 1000.0
    ensures reason == OrbitalVelocityNotAchieved <==>
              && rocket.hullIntegrity > 0.0
              && !(rocket.fuel <= 0.0 && rocket.altitude > 1000.0)
              && rocket.altitude > 100000.0 && rocket.speed < 100.0
    ensures reason == ObjectivesNotMet <==>
              && rocket.hullIntegrity > 0.0
              && !(rocket.fuel <= 0.0 && rocket.altitude > 1000.0)
              && !(rocket.altitude > 100000.0 && rocket.speed < 100.0)
  {
    if rocket.hullIntegrity <= 0.0 then CriticalHullFailure
    else if rocket.fuel <= 0.0 && rocket.altitude > 1000.0 then FuelDepletion
    else if rocket.altitude > 100000.0 && rocket.speed < 100.0 then OrbitalVelocityNotAchieved
    else ObjectivesNotMet
  }

  /** The text the failure screen shows: one of four distinct messages,
      chosen by the cause in priority order. */
  function FailureMessage(rocket: RocketState): (msg: string)
    ensures msg == "Critical hull failure" <==> rocket.hullIntegrity <= 0.0
    ensures msg == "Fuel depletion" <==>
              rocket.hullIntegrity > 0.0 && rocket.fuel <= 0.0 && rocket.altitude > 1000.0
    ensures msg == "Orbital velocity not achieved" <==>
              && rocket.hullIntegrity > 0.0
              && !(rocket.fuel <= 0.0 && rocket.altitude > 1000.0)
              && rocket.altitude > 100000.0 && rocket.speed < 100.0
    ensures msg == "Mission objectives not met" <==>
              && rocket.hullIntegrity > 0.0
              && !(rocket.fuel <= 0.0 && rocket.altitude > 1000.0)
              && !(rocket.altitude > 100000.0 && rocket.speed < 100.0)
  {
    Message(GetFailureReason(rocket))
  }

  /** A stalled rocket above the Karman line with an empty tank is reported as
      fuel depletion: that cause is tested first. */
  lemma FuelDepletionShadowsOrbitalVelocity(rocket: RocketState)
    requires rocket.hullIntegrity > 0.0 && rocket.fuel <= 0.0
    requires rocket.altitude > 100000.0 && rocket.speed < 100.0
    ensures GetFailureReason(rocket) == FuelDepletion
  {
  }

  /** Mission time as whole minutes, a colon, and two-digit seconds. */
  function MissionTime(gameTime: nat): (r: string)
    ensures var parts := Split(r, ':');
            && |parts| == 2
            && AllDigits(parts[0]) && AllDigits(parts[1])
            && parts[0] == Decimal(gameTime / 60)
            && |parts[1]| == 2
            && ValueOf(parts[0]) * 60 + ValueOf(parts[1]) == gameTime
            && ValueOf(parts[1]) < 60
  {
    var minutes := Decimal(gameTime / 60);
    var seconds := ZeroPadded(gameTime % 60, 2);
    DecimalRoundTrip(gameTime / 60);
    assert forall j :: 0 <= j < |minutes| ==> minutes[j] != ':';
    SplitJoin(minutes, ':', seconds);
    SplitSingle(seconds, ':');
    minutes + ":" + seconds
  }
}

=== FILE: mission_select.dfy ===
/**
 The mission-select screen's availability filter: a mission is offered
 when it has not been completed and every prerequisite has been.
 */
module MissionSelect {
  import opened GameTypes

  /** Every prerequisite id is among the completed ids (true when there are none). */
  predicate PrerequisitesMet(m: Mission, completed: seq<string>)
  {
    forall p :: p in m.prerequisites ==> p in completed
  }

  predicate Offered(m: Mission, completed: seq<string>)
  {
    m.id !in completed && PrerequisitesMet(m, completed)
  }

  /** `sub` is `xs` with some entries left out, order kept. */
  predicate SubsequenceOf<T(==)>(sub: seq<T>, xs: seq<T>)
    decreases |xs|
  {
    if |sub| == 0 then true
    else if |xs| == 0 then false
    else if sub[0] == xs[0] then SubsequenceOf(sub[1..], xs[1..])
    else SubsequenceOf(sub, xs[1..])
  }

  function AvailableMissions(missions: seq<Mission>, completed: seq<string>): (r: seq<Mission>)
    ensures forall m :: m in r <==> m in missions && Offered(m, completed)
    ensures forall m :: multiset(r)[m] == if Offered(m, completed) then multiset(missions)[m] else 0
    ensures |r| <= |missions|
    decreases |missions|
  {
    if |missions| == 0 then []
    else
      var rest := AvailableMissions(missions[1..], completed);
      assert forall m :: m in missions <==> m == missions[0] || m in missions[1..];
      assert missions == [missions[0]] + missions[1..];
      assert multiset(missions) == multiset([missions[0]]) + multiset(missions[1..]);
      if Offered(missions[0], completed) then
        assert multiset([missions[0]] + rest) == multiset([missions[0]]) + multiset(rest);
        [missions[0]] + rest
      else rest
  }

  lemma {:induction false} AvailableIsSubsequence(missions: seq<Mission>, completed: seq<string>)
    ensures SubsequenceOf(AvailableMissions(missions, completed), missions)
    decreases |missions|
  {
    if |missions| > 0 {
      AvailableIsSubsequence(missions[1..], completed);
      var rest := AvailableMissions(missions[1..], completed);
      if Offered(missions[0], completed) {
        assert ([missions[0]] + rest)[1..] == rest;
      } else {
        SubsequenceSkip(rest, missions);
      }
    }
  }

  /** A subsequence of the tail is a subsequence of the whole. */
  lemma {:induction false} SubsequenceSkip<T>(sub: seq<T>, xs: seq<T>)
    requires |xs| > 0 && SubsequenceOf(sub, xs[1..])
    ensures SubsequenceOf(sub, xs)
    decreases |xs|, |sub|
  {
    if |sub| > 0 && sub[0] == xs[0] {
      SubsequenceTail(sub, xs[1..]);
    }
  }

  /** Dropping the head of a subsequence keeps it a subsequence. */
  lemma {:induction false} SubsequenceTail<T>(sub: seq<T>, xs: seq<T>)
    requires |sub| > 0 && SubsequenceOf(sub, xs)
    ensures SubsequenceOf(sub[1..], xs)
    decreases |xs|, |sub|
  {
    if sub[0] == xs[0] {
      if |sub| > 1 {
        SubsequenceSkip(sub[1..], xs);
      }
    } else {
      SubsequenceTail(sub, xs[1..]);
      if |sub| > 1 {
        SubsequenceSkip(sub[1..], xs);
      }
    }
  }

  lemma NoCompletedMissionOffered(missions: seq<Mission>, completed: seq<string>, m: Mission)
    requires m.id in completed
    ensures m !in AvailableMissions(missions, completed)
  {
  }

  /** With no prerequisites a mission is offered exactly when it is not completed. */
  lemma NoPrerequisitesOfferedUnlessCompleted(missions: seq<Mission>, completed: seq<string>, m: Mission)
    requires m in missions && m.prerequisites == []
    ensures m in AvailableMissions(missions, completed) <==> m.id !in completed
  {
  }

  /** The "all missions completed" message: shown exactly when every mission
      in the catalog is either completed or still locked. */
  function AllCompletedShown(missions: seq<Mission>, completed: seq<string>): (shown: bool)
    ensures shown <==> forall m :: m in missions ==> !Offered(m, completed)
  {
    var r := AvailableMissions(missions, completed);
    assert |r| > 0 ==> r[0] in r;
    |r| == 0
  }
}

=== FILE: store.dfy ===
/**
 The game store: the initial values and every store action, each a pure
 transition from one game state to the next. Fields an action does not
 name keep their value, which every contract below states as
 `r == s.(...)` with only the changed fields listed.
 */
module Store {
  import opened GameTypes

  /** Maximum number of earlier samples kept when a telemetry sample is appended. */
  const TelemetryKeep: nat := 100

  /** Experience needed per level. */
  const ExperiencePerLevel: int := 1000

  const Origin := Vec3(0.0, 0.0, 0.0)

  /** The rocket on the pad: full tank, intact hull, engine off, landed. */
  const InitialRocket := RocketState(
    position := Origin,
    velocity := Origin,
    rotation := Origin,
    angularVelocity := Origin,
    fuel := 10000.0,
    maxFuel := 10000.0,
    thrust := 0.0,
    maxThrust := 30000.0,
    mass := 5000.0,
    temperature := 288.0,
    hullIntegrity := 100.0,
    altitude := 0.0,
    speed := 0.0,
    pitch := 0.0,
    yaw := 0.0,
    roll := 0.0,
    throttle := 0.0,
    isEngineOn := false,
    isLanded := true,
    isDocked := false
  )

  const InitialEnvironment := EnvironmentState(
    atmosphereDensity := 1.225,
    gravity := 9.81,
    temperature := 288.0,
    windVelocity := Origin,
    timeOfDay := 0.0
  )

  /** The store before any action: no mission, empty lists, level 1. */
  const InitialState := GameState(
    currentMission := None,
    missionPhase := PreFlight,
    missionStatus := NotStarted,
    rocket := InitialRocket,
    environment := InitialEnvironment,
    achievements := [],
    availableMissions := [],
    completedMissions := [],
    telemetry := [],
    isPaused := false,
    gameTime := 0,
    credits := 0,
    experience := 0,
    level := 1
  )

  /** The level that a total experience earns: one more than the number of
      whole thousands of experience (floor division, also below zero). */
  predicate IsLevelFor(level: int, experience: int)
  {
    (level - 1) * ExperiencePerLevel <= experience < level * ExperiencePerLevel
  }

  function LevelFor(experience: int): (level: int)
    ensures IsLevelFor(level, experience)
  {
    experience / ExperiencePerLevel + 1
  }

  lemma LevelForUnique(level: int, other: int, experience: int)
    requires IsLevelFor(level, experience) && IsLevelFor(other, experience)
    ensures level == other
  {
  }

  function SetMissionPhase(s: GameState, phase: MissionPhase): (r: GameState)
    ensures r.missionPhase == phase
    ensures r == s.(missionPhase := r.missionPhase)
  {
    s.(missionPhase := phase)
  }

  /** Sets the status alone; the pause flag is not brought in line with it. */
  function SetMissionStatus(s: GameState, status: MissionStatus): (r: GameState)
    ensures r.missionStatus == status
    ensures r.isPaused == s.isPaused
    ensures r == s.(missionStatus := r.missionStatus)
  {
    s.(missionStatus := status)
  }

  /** Replaces the rocket; a partial update is a rocket built by the caller. */
  function UpdateRocket(s: GameState, rocket: RocketState): (r: GameState)
    ensures r.rocket == rocket
    ensures r == s.(rocket := r.rocket)
  {
    s.(rocket := rocket)
  }

  function Clamp01(t: real): (c: real)
    ensures 0.0 <= c <= 1.0
    ensures 0.0 <= t <= 1.0 ==> c == t
    ensures t < 0.0 ==> c == 0.0
    ensures t > 1.0 ==> c == 1.0
  {
    if t < 0.0 then 0.0 else if t > 1.0 then 1.0 else t
  }

  function SetThrottle(s: GameState, throttle: real): (r: GameState)
    ensures 0.0 <= r.rocket.throttle <= 1.0
    ensures 0.0 <= throttle <= 1.0 ==> r.rocket.throttle == throttle
    ensures throttle < 0.0 ==> r.rocket.throttle == 0.0
    ensures throttle > 1.0 ==> r.rocket.throttle == 1.0
    ensures r == s.(rocket := s.rocket.(throttle := r.rocket.throttle))
  {
    s.(rocket := s.rocket.(throttle := Clamp01(throttle)))
  }

  function SetEngineOn(s: GameState, on: bool): (r: GameState)
    ensures r.rocket.isEngineOn == on
    ensures r == s.(rocket := s.rocket.(isEngineOn := r.rocket.isEngineOn))
  {
    s.(rocket := s.rocket.(isEngineOn := on))
  }

  /** Flips the pause flag; the status is derived from the OLD flag only,
      whatever the status was. */
  function TogglePause(s: GameState): (r: GameState)
    ensures r.isPaused != s.isPaused
    ensures r.missionStatus == (if r.isPaused then Paused else InProgress)
    ensures r == s.(isPaused := r.isPaused, missionStatus := r.missionStatus)
  {
    s.(isPaused := !s.isPaused,
       missionStatus := if s.isPaused then InProgress else Paused)
  }

  lemma TogglePauseTwice(s: GameState)
    ensures TogglePause(TogglePause(s)).isPaused == s.isPaused
    ensures TogglePause(TogglePause(s)).missionStatus == (if s.isPaused then Paused else InProgress)
    ensures TogglePause(TogglePause(s)) == s.(missionStatus := TogglePause(TogglePause(s)).missionStatus)
  {
  }

  /** The last `TelemetryKeep` entries of `buf` followed by `x`. */
  function AppendBounded<T>(buf: seq<T>, x: T): (r: seq<T>)
    ensures |r| == (if |buf| < TelemetryKeep then |buf| else TelemetryKeep) + 1
    ensures |r| <= TelemetryKeep + 1
    ensures r[|r| - 1] == x
    ensures r[..|r| - 1] == buf[|buf| - (|r| - 1)..]
  {
    var start := if |buf| > TelemetryKeep then |buf| - TelemetryKeep else 0;
    var kept := buf[start..];
    var r := kept + [x];
    assert |r| - 1 == |kept| == |buf| - start;
    assert r[..|kept|] == kept;
    r
  }

  /** Appending the samples one after another, starting from `buf`. */
  function AppendAll<T>(buf: seq<T>, xs: seq<T>): seq<T>
    decreases |xs|
  {
    if |xs| == 0 then buf else AppendAll(AppendBounded(buf, xs[0]), xs[1..])
  }

  function Min(a: int, b: int): int
  {
    if a < b then a else b
  }

  /** Appending one sample drops a prefix of the history. */
  lemma AppendBoundedDropsPrefix<T>(buf: seq<T>, x: T, tail: seq<T>)
    ensures var d := |buf| + 1 - |AppendBounded(buf, x)|;
            AppendBounded(buf, x) + tail == (buf + ([x] + tail))[d..]
  {
    var r := AppendBounded(buf, x);
    var d := |buf| + 1 - |r|;
    assert r == (buf + [x])[d..];
    assert (buf + [x])[d..] + tail == (buf + [x] + tail)[d..];
    assert buf + [x] + tail == buf + ([x] + tail);
  }

  /** Dropping a prefix, when what is left still holds a full window, keeps
      the latest `TelemetryKeep + 1` entries. */
  lemma LatestAfterDrop<T>(all: seq<T>, d: nat, rest: seq<T>)
    requires d <= |all| && rest == all[d..]
    requires d > 0 ==> |rest| >= TelemetryKeep + 1
    ensures rest[|rest| - Min(|rest|, TelemetryKeep + 1)..] == all[|all| - Min(|all|, TelemetryKeep + 1)..]
  {
    var k := Min(|all|, TelemetryKeep + 1);
    assert Min(|rest|, TelemetryKeep + 1) == k;
    assert rest[|rest| - k..] == all[d..][|all| - d - k..];
  }

  /** One append, seen from the whole history: it drops a prefix, and only
      when a full window remains. */
  lemma AppendBoundedStep<T>(buf: seq<T>, xs: seq<T>)
    requires |buf| <= TelemetryKeep + 1 && |xs| > 0
    ensures var next := AppendBounded(buf, xs[0]);
            var d := |buf| + 1 - |next|;
            && |next| <= TelemetryKeep + 1
            && 0 <= d <= |buf + xs|
            && next + xs[1..] == (buf + xs)[d..]
            && (d > 0 ==> |next + xs[1..]| >= TelemetryKeep + 1)
  {
    AppendBoundedDropsPrefix(buf, xs[0], xs[1..]);
    assert [xs[0]] + xs[1..] == xs;
  }

  /** Feeding samples into a buffer of at most `TelemetryKeep + 1` samples
      leaves the latest `TelemetryKeep + 1` of the whole history. */
  lemma {:induction false} AppendAllKeepsLatest<T>(buf: seq<T>, xs: seq<T>)
    requires |buf| <= TelemetryKeep + 1
    ensures var all := buf + xs;
            AppendAll(buf, xs) == all[|all| - Min(|all|, TelemetryKeep + 1)..]
    decreases |xs|
  {
    if |xs| == 0 {
      assert buf + xs == buf;
    } else {
      var next := AppendBounded(buf, xs[0]);
      assert AppendAll(buf, xs) == AppendAll(next, xs[1..]);
      AppendBoundedStep(buf, xs);
      AppendAllKeepsLatest(next, xs[1..]);
      LatestAfterDrop(buf + xs, |buf| + 1 - |next|, next + xs[1..]);
    }
  }

  /** From an empty buffer: fed `n` samples, it holds min(n, 101). */
  lemma FeedFromEmpty<T>(xs: seq<T>)
    ensures |AppendAll([], xs)| == Min(|xs|, TelemetryKeep + 1)
    ensures AppendAll([], xs) == xs[|xs| - Min(|xs|, TelemetryKeep + 1)..]
  {
    AppendAllKeepsLatest([], xs);
    assert [] + xs == xs;
  }

  function AddTelemetry(s: GameState, data: TelemetryData): (r: GameState)
    ensures |r.telemetry| == Min(|s.telemetry|, TelemetryKeep) + 1
    ensures r.telemetry[|r.telemetry| - 1] == data
    ensures r.telemetry[..|r.telemetry| - 1] == s.telemetry[|s.telemetry| - (|r.telemetry| - 1)..]
    ensures r == s.(telemetry := r.telemetry)
  {
    s.(telemetry := AppendBounded(s.telemetry, data))
  }

  /** The floating-point readings a telemetry sample derives from the
      rocket (acceleration, fuel percentage, g-force), supplied as given. */
  datatype Readings = Readings(acceleration: real, fuelLevel: real, gForce: real)

  /** Records one sample of the current state. */
  function UpdateTelemetry(s: GameState, readings: Readings): (r: GameState)
    ensures |r.telemetry| == Min(|s.telemetry|, TelemetryKeep) + 1
    ensures r.telemetry[..|r.telemetry| - 1] == s.telemetry[|s.telemetry| - (|r.telemetry| - 1)..]
    ensures var last := r.telemetry[|r.telemetry| - 1];
            && last.timestamp == s.gameTime
            && last.altitude == s.rocket.altitude
            && last.velocity == s.rocket.speed
            && last.temperature == s.rocket.temperature
            && last.hullIntegrity == s.rocket.hullIntegrity
            && last.acceleration == readings.acceleration
            && last.fuelLevel == readings.fuelLevel
            && last.gForce == readings.gForce
    ensures r == s.(telemetry := r.telemetry)
  {
    var sample := TelemetryData(
      timestamp := s.gameTime,
      altitude := s.rocket.altitude,
      velocity := s.rocket.speed,
      acceleration := readings.acceleration,
      fuelLevel := readings.fuelLevel,
      temperature := s.rocket.temperature,
      hullIntegrity := s.rocket.hullIntegrity,
      gForce := readings.gForce);
    AddTelemetry(s, sample)
  }

  /** Every entry with the id becomes unlocked at `now`; others are kept. */
  function UnlockIn(list: seq<Achievement>, id: string, now: nat): (r: seq<Achievement>)
    ensures |r| == |list|
    ensures forall i :: 0 <= i < |list| && list[i].id == id ==>
              r[i] == list[i].(unlocked := true, unlockedAt := Some(now))
    ensures forall i :: 0 <= i < |list| && list[i].id != id ==> r[i] == list[i]
  {
    seq(|list|, i requires 0 <= i < |list| =>
      if list[i].id == id then list[i].(unlocked := true, unlockedAt := Some(now)) else list[i])
  }

  function UnlockAchievement(s: GameState, id: string, now: nat): (r: GameState)
    ensures |r.achievements| == |s.achievements|
    ensures forall i :: 0 <= i < |s.achievements| && s.achievements[i].id == id ==>
              r.achievements[i] == s.achievements[i].(unlocked := true, unlockedAt := Some(now))
    ensures forall i :: 0 <= i < |s.achievements| && s.achievements[i].id != id ==>
              r.achievements[i] == s.achievements[i]
    ensures r == s.(achievements := r.achievements)
  {
    s.(achievements := UnlockIn(s.achievements, id, now))
  }

  /** A second unlock leaves the flags as the first set them but stamps the
      matching entries with the later clock reading. */
  lemma UnlockAgain(s: GameState, id: string, first: nat, second: nat)
    ensures var once := UnlockAchievement(s, id, first);
            var twice := UnlockAchievement(once, id, second);
            && |twice.achievements| == |once.achievements|
            && (forall i :: 0 <= i < |once.achievements| ==>
                  twice.achievements[i].unlocked == once.achievements[i].unlocked)
            && (forall i :: 0 <= i < |once.achievements| && once.achievements[i].id == id ==>
                  twice.achievements[i].unlockedAt == Some(second))
  {
  }

  /** The first mission in the list with the id, as Array.find does. */
  function FindMission(ms: seq<Mission>, id: string): (r: Option<Mission>)
    ensures r.None? <==> forall i :: 0 <= i < |ms| ==> ms[i].id != id
    ensures r.Some? ==>
              exists i :: && 0 <= i < |ms| && ms[i] == r.value && ms[i].id == id
                          && forall j :: 0 <= j < i ==> ms[j].id != id
  {
    if |ms| == 0 then None
    else if ms[0].id == id then Some(ms[0])
    else
      var r := FindMission(ms[1..], id);
      if r.Some? then
        ghost var i :| 0 <= i < |ms[1..]| && ms[1..][i] == r.value && ms[1..][i].id == id &&
                       forall j :: 0 <= j < i ==> ms[1..][j].id != id;
        assert ms[i + 1] == r.value;
        r
      else r
  }

  function ResetObjectives(objectives: seq<MissionObjective>): (r: seq<MissionObjective>)
    ensures |r| == |objectives|
    ensures forall i :: 0 <= i < |r| ==> r[i] == objectives[i].(completed := false)
  {
    seq(|objectives|, i requires 0 <= i < |objectives| => objectives[i].(completed := false))
  }

  /** `current` is `listed` with each of its own objectives, in order, marked
      not completed. */
  predicate FreshStart(listed: Mission, current: Mission)
  {
    && current == listed.(objectives := current.objectives)
    && |current.objectives| == |listed.objectives|
    && forall k :: 0 <= k < |current.objectives| ==>
         current.objectives[k] == listed.objectives[k].(completed := false)
  }

  /** Starts the first listed mission with the id, if the store lists one;
      otherwise a no-op. */
  function StartMission(s: GameState, missionId: string): (r: GameState)
    ensures (forall i :: 0 <= i < |s.availableMissions| ==> s.availableMissions[i].id != missionId)
            ==> r == s
    ensures (exists i :: 0 <= i < |s.availableMissions| && s.availableMissions[i].id == missionId) ==>
              && r.currentMission.Some?
              && r.currentMission.value.id == missionId
              && FreshStart(FindMission(s.availableMissions, missionId).value, r.currentMission.value)
              && r.missionPhase == PreFlight
              && r.missionStatus == InProgress
              && r.rocket == InitialRocket
              && r.telemetry == []
              && r.gameTime == 0
              && r == s.(currentMission := r.currentMission, missionPhase := PreFlight,
                         missionStatus := InProgress, rocket := InitialRocket,
                         telemetry := [], gameTime := 0)
  {
    match FindMission(s.availableMissions, missionId)
    case None => s
    case Some(mission) =>
      s.(currentMission := Some(mission.(objectives := ResetObjectives(mission.objectives))),
         missionPhase := PreFlight,
         missionStatus := InProgress,
         rocket := InitialRocket,
         telemetry := [],
         gameTime := 0)
  }

  function CompleteObjectiveIn(objectives: seq<MissionObjective>, objectiveId: string): (r: seq<MissionObjective>)
    ensures |r| == |objectives|
    ensures forall i :: 0 <= i < |r| && objectives[i].id == objectiveId ==>
              r[i] == objectives[i].(completed := true)
    ensures forall i :: 0 <= i < |r| && objectives[i].id != objectiveId ==> r[i] == objectives[i]
  {
    seq(|objectives|, i requires 0 <= i < |objectives| =>
      if objectives[i].id == objectiveId then objectives[i].(completed := true) else objectives[i])
  }

  function CompleteObjective(s: GameState, objectiveId: string): (r: GameState)
    ensures s.currentMission.None? ==> r == s
    ensures s.currentMission.Some? ==>
              && r.currentMission.Some?
              && var before := s.currentMission.value.objectives;
                 var after := r.currentMission.value.objectives;
                 && |after| == |before|
                 && (forall i :: 0 <= i < |before| && before[i].id == objectiveId ==>
                       after[i] == before[i].(completed := true))
                 && (forall i :: 0 <= i < |before| && before[i].id != objectiveId ==>
                       after[i] == before[i])
                 && r.currentMission.value == s.currentMission.value.(objectives := after)
    ensures r == s.(currentMission := r.currentMission)
  {
    match s.currentMission
    case None => s
    case Some(m) =>
      s.(currentMission := Some(m.(objectives := CompleteObjectiveIn(m.objectives, objectiveId))))
  }

  /** Records the current mission as completed and pays its rewards. It does
      not check whether the mission was already recorded. */
  function CompleteMission(s: GameState): (r: GameState)
    ensures s.currentMission.None? ==> r == s
    ensures s.currentMission.Some? ==>
              var m := s.currentMission.value;
              && r.completedMissions == s.completedMissions + [m.id]
              && r.credits == s.credits + m.rewards.credits
              && r.experience == s.experience + m.rewards.experience
              && IsLevelFor(r.level, r.experience)
              && r.missionPhase == MissionComplete
              && r.missionStatus == Completed
              && r == s.(missionPhase := MissionComplete, missionStatus := Completed,
                         completedMissions := r.completedMissions, credits := r.credits,
                         experience := r.experience, level := r.level)
  {
    match s.currentMission
    case None => s
    case Some(m) =>
      s.(missionPhase := MissionComplete,
         missionStatus := Completed,
         completedMissions := s.completedMissions + [m.id],
         credits := s.credits + m.rewards.credits,
         experience := s.experience + m.rewards.experience,
         level := LevelFor(s.experience + m.rewards.experience))
  }

  /** Completing twice records the mission twice and pays twice. */
  lemma CompleteMissionTwice(s: GameState)
    requires s.currentMission.Some?
    ensures var m := s.currentMission.value;
            var t := CompleteMission(CompleteMission(s));
            && t.completedMissions == s.completedMissions + [m.id, m.id]
            && t.credits == s.credits + 2 * m.rewards.credits
            && t.experience == s.experience + 2 * m.rewards.experience
  {
    var m := s.currentMission.value;
    assert s.completedMissions + [m.id] + [m.id] == s.completedMissions + [m.id, m.id];
  }

  function FailMission(s: GameState): (r: GameState)
    ensures r.missionPhase == MissionFailed && r.missionStatus == Failed
    ensures SameLedger(s, r)
    ensures r == s.(missionPhase := MissionFailed, missionStatus := Failed)
  {
    s.(missionPhase := MissionFailed, missionStatus := Failed)
  }

  /** Restores the mission-scoped fields; the ledger, the current mission and
      the pause flag are kept. */
  function ResetMission(s: GameState): (r: GameState)
    ensures r.rocket == InitialRocket && r.telemetry == [] && r.gameTime == 0
    ensures r.missionPhase == PreFlight && r.missionStatus == NotStarted
    ensures SameLedger(s, r) && r.currentMission == s.currentMission && r.isPaused == s.isPaused
    ensures r == s.(rocket := InitialRocket, telemetry := [], gameTime := 0,
                    missionPhase := PreFlight, missionStatus := NotStarted)
  {
    s.(rocket := InitialRocket,
       telemetry := [],
       gameTime := 0,
       missionPhase := PreFlight,
       missionStatus := NotStarted)
  }

  /** The reset rocket has the canonical launch configuration. */
  lemma ResetRestoresCanonicalRocket(s: GameState)
    ensures var r := ResetMission(s).rocket;
            && r.fuel == r.maxFuel == 10000.0
            && r.hullIntegrity == 100.0
            && r.throttle == 0.0
            && !r.isEngineOn
            && r.isLanded
            && r.mass == 5000.0
  {
  }

  lemma ResetIdempotent(s: GameState)
    ensures ResetMission(ResetMission(s)) == ResetMission(s)
  {
  }

  function AddCredits(s: GameState, amount: int): (r: GameState)
    ensures r.credits - s.credits == amount
    ensures r == s.(credits := r.credits)
  {
    s.(credits := s.credits + amount)
  }

  function AddExperience(s: GameState, amount: int): (r: GameState)
    ensures r.experience - s.experience == amount
    ensures IsLevelFor(r.level, r.experience)
    ensures r == s.(experience := r.experience, level := r.level)
  {
    s.(experience := s.experience + amount, level := LevelFor(s.experience + amount))
  }

  function SetAvailableMissions(s: GameState, missions: seq<Mission>): (r: GameState)
    ensures r.availableMissions == missions
    ensures r == s.(availableMissions := missions)
  {
    s.(availableMissions := missions)
  }

  function SetAchievements(s: GameState, achievements: seq<Achievement>): (r: GameState)
    ensures r.achievements == achievements
    ensures r == s.(achievements := achievements)
  {
    s.(achievements := achievements)
  }
}

=== FILE: text.dfy ===
/**
 Text helpers the displays use: decimal rendering of naturals, left
 padding, splitting at a separator, and reading digit strings back.
 */
module Text {

  predicate IsDigit(c: char)
  {
    '0' <= c <= '9'
  }

  predicate AllDigits(s: string)
  {
    forall i :: 0 <= i < |s| ==> IsDigit(s[i])
  }

  function DigitChar(d: nat): (c: char)
    requires d < 10
    ensures IsDigit(c)
  {
    ['0', '1', '2', '3', '4', '5', '6', '7', '8', '9'][d]
  }

  function DigitValue(c: char): (d: nat)
    requires IsDigit(c)
    ensures d < 10
  {
    (c as int - '0' as int) as nat
  }

  lemma DigitRoundTrip(d: nat)
    requires d < 10
    ensures DigitValue(DigitChar(d)) == d
  {
  }

  /** The shortest decimal rendering of `n`, as Number.toString gives it. */
  function Decimal(n: nat): (s: string)
    ensures |s| >= 1
    ensures AllDigits(s)
    ensures n < 10 <==> |s| == 1
    ensures 10 <= n < 100 ==> |s| == 2
  {
    if n < 10 then [DigitChar(n)] else Decimal(n / 10) + [DigitChar(n % 10)]
  }

  /** The number a string of decimal digits denotes. */
  function ValueOf(s: string): nat
    requires AllDigits(s)
  {
    if |s| == 0 then 0 else ValueOf(s[..|s| - 1]) * 10 + DigitValue(s[|s| - 1])
  }

  lemma {:induction false} DecimalRoundTrip(n: nat)
    ensures ValueOf(Decimal(n)) == n
  {
    var s := Decimal(n);
    if n < 10 {
      DigitRoundTrip(n);
    } else {
      DecimalRoundTrip(n / 10);
      assert s[..|s| - 1] == Decimal(n / 10);
      DigitRoundTrip(n % 10);
    }
  }

  function Repeat(c: char, k: nat): (r: string)
    ensures |r| == k
    ensures forall i :: 0 <= i < k ==> r[i] == c
  {
    if k == 0 then [] else [c] + Repeat(c, k - 1)
  }

  /** String.prototype.padStart with a one-character filler. */
  function PadStart(s: string, width: nat, fill: char): (r: string)
    ensures |r| == if |s| < width then width else |s|
    ensures r[|r| - |s|..] == s
    ensures forall i :: 0 <= i < |r| - |s| ==> r[i] == fill
  {
    var pad := if |s| < width then Repeat(fill, width - |s|) else [];
    assert (pad + s)[|pad|..] == s;
    pad + s
  }

  /** Leading zeros do not change the value of a digit string. */
  lemma {:induction false} LeadingZeros(k: nat, s: string)
    requires AllDigits(s)
    ensures AllDigits(Repeat('0', k) + s)
    ensures ValueOf(Repeat('0', k) + s) == ValueOf(s)
    decreases |s|
  {
    var z := Repeat('0', k);
    if |s| == 0 {
      assert z + s == z;
      ZerosValue(k);
    } else {
      LeadingZeros(k, s[..|s| - 1]);
      assert (z + s)[..|z + s| - 1] == z + s[..|s| - 1];
    }
  }

  lemma {:induction false} ZerosValue(k: nat)
    ensures AllDigits(Repeat('0', k))
    ensures ValueOf(Repeat('0', k)) == 0
  {
    if k > 0 {
      var z := Repeat('0', k);
      ZerosValue(k - 1);
      assert z[..k - 1] == Repeat('0', k - 1);
    }
  }

  /** A zero-padded decimal field reads back as its number. */
  lemma PaddedDecimalRoundTrip(n: nat, width: nat)
    ensures AllDigits(PadStart(Decimal(n), width, '0'))
    ensures ValueOf(PadStart(Decimal(n), width, '0')) == n
  {
    var d := Decimal(n);
    var k := if |d| < width then width - |d| else 0;
    assert PadStart(d, width, '0') == Repeat('0', k) + d;
    LeadingZeros(k, d);
    DecimalRoundTrip(n);
  }

  /** A number rendered in decimal and left-padded with zeros to at least
      `width` characters; digits are never the ':' separator. */
  function ZeroPadded(n: nat, width: nat): (f: string)
    ensures AllDigits(f)
    ensures ValueOf(f) == n
    ensures |f| >= width && |f| >= 1
    ensures n < 100 && width == 2 ==> |f| == 2
    ensures forall j :: 0 <= j < |f| ==> f[j] != ':'
    ensures f == PadStart(Decimal(n), width, '0')
  {
    PaddedDecimalRoundTrip(n, width);
    PadStart(Decimal(n), width, '0')
  }

  /** The pieces of `s` between occurrences of `sep`, as String.split does. */
  function Split(s: string, sep: char): (parts: seq<string>)
    ensures |parts| >= 1
    ensures forall i, j :: 0 <= i < |parts| && 0 <= j < |parts[i]| ==> parts[i][j] != sep
  {
    SplitFrom(s, sep, [])
  }

  function SplitFrom(s: string, sep: char, current: string): (parts: seq<string>)
    requires forall j :: 0 <= j < |current| ==> current[j] != sep
    ensures |parts| >= 1
    ensures forall i, j :: 0 <= i < |parts| && 0 <= j < |parts[i]| ==> parts[i][j] != sep
    decreases |s|
  {
    if |s| == 0 then [current]
    else if s[0] == sep then [current] + SplitFrom(s[1..], sep, [])
    else SplitFrom(s[1..], sep, current + [s[0]])
  }

  lemma {:induction false} SplitFromJoin(a: string, sep: char, rest: string, current: string)
    requires forall j :: 0 <= j < |current| ==> current[j] != sep
    requires forall j :: 0 <= j < |a| ==> a[j] != sep
    ensures SplitFrom(a + [sep] + rest, sep, current) == [current + a] + SplitFrom(rest, sep, [])
    decreases |a|
  {
    if |a| == 0 {
      assert a + [sep] + rest == [sep] + rest;
      assert ([sep] + rest)[1..] == rest;
      assert current + a == current;
    } else {
      assert (a + [sep] + rest)[1..] == a[1..] + [sep] + rest;
      SplitFromJoin(a[1..], sep, rest, current + [a[0]]);
      assert current + [a[0]] + a[1..] == current + a;
    }
  }

  lemma {:induction false} SplitFromNoSep(a: string, sep: char, current: string)
    requires forall j :: 0 <= j < |current| ==> current[j] != sep
    requires forall j :: 0 <= j < |a| ==> a[j] != sep
    ensures SplitFrom(a, sep, current) == [current + a]
    decreases |a|
  {
    if |a| == 0 {
      assert current + a == current;
    } else {
      SplitFromNoSep(a[1..], sep, current + [a[0]]);
      assert current + [a[0]] + a[1..] == current + a;
    }
  }

  /** Splitting a separator-free piece, a separator and the rest. */
  lemma SplitJoin(a: string, sep: char, rest: string)
    requires forall j :: 0 <= j < |a| ==> a[j] != sep
    ensures Split(a + [sep] + rest, sep) == [a] + Split(rest, sep)
  {
    SplitFromJoin(a, sep, rest, []);
    assert [] + a == a;
  }

  lemma SplitSingle(a: string, sep: char)
    requires forall j :: 0 <= j < |a| ==> a[j] != sep
    ensures Split(a, sep) == [a]
  {
    SplitFromNoSep(a, sep, []);
    assert [] + a == a;
  }

  /** ASCII upper-case letters to lower case; everything else unchanged. */
  function ToLower(s: string): (r: string)
    ensures |r| == |s|
    ensures forall i :: 0 <= i < |s| ==>
              r[i] == if 'A' <= s[i] <= 'Z' then (s[i] as int + 32) as char else s[i]
  {
    seq(|s|, i requires 0 <= i < |s| =>
      if 'A' <= s[i] <= 'Z' then (s[i] as int + 32) as char else s[i])
  }
}

=== FILE: types.dfy ===
/**
 The records of the game's state: the rocket, missions and their
 objectives, achievements, telemetry samples and the root game state.
 Quantities the flight model produces are `real`; counts and the game
 clock are integers.
 */
module GameTypes {

  datatype Option<+T> = None | Some(value: T)

  datatype MissionPhase =
    | PreFlight
    | Launch
    | Ascent
    | OrbitInsertion
    | Orbit
    | Docking
    | ReEntry
    | Landing
    | MissionComplete
    | MissionFailed

  datatype MissionStatus = NotStarted | InProgress | Paused | Completed | Failed

  datatype Vec3 = Vec3(x: real, y: real, z: real)

  datatype RocketState = RocketState(
    position: Vec3,
    velocity: Vec3,
    rotation: Vec3,
    angularVelocity: Vec3,
    fuel: real,
    maxFuel: real,
    thrust: real,
    maxThrust: real,
    mass: real,
    temperature: real,
    hullIntegrity: real,
    altitude: real,
    speed: real,
    pitch: real,
    yaw: real,
    roll: real,
    throttle: real,
    isEngineOn: bool,
    isLanded: bool,
    isDocked: bool
  )

  datatype EnvironmentState = EnvironmentState(
    atmosphereDensity: real,
    gravity: real,
    temperature: real,
    windVelocity: Vec3,
    timeOfDay: real
  )

  datatype MissionObjective = MissionObjective(
    id: string,
    description: string,
    completed: bool,
    optional: bool,
    progress: real,
    targetValue: real
  )

  datatype Difficulty = Easy | Medium | Hard | Extreme

  datatype Rewards = Rewards(experience: int, credits: int)

  datatype Mission = Mission(
    id: string,
    name: string,
    description: string,
    objectives: seq<MissionObjective>,
    phases: seq<MissionPhase>,
    duration: int,
    difficulty: Difficulty,
    rewards: Rewards,
    prerequisites: seq<string>
  )

  datatype Rarity = Common | Rare | Epic | Legendary

  /** `unlockedAt` holds the reading of an abstract clock at unlock time. */
  datatype Achievement = Achievement(
    id: string,
    name: string,
    description: string,
    unlocked: bool,
    unlockedAt: Option<nat>,
    icon: string,
    rarity: Rarity
  )

  datatype TelemetryData = TelemetryData(
    timestamp: nat,
    altitude: real,
    velocity: real,
    acceleration: real,
    fuelLevel: real,
    temperature: real,
    hullIntegrity: real,
    gForce: real
  )

  datatype GameState = GameState(
    currentMission: Option<Mission>,
    missionPhase: MissionPhase,
    missionStatus: MissionStatus,
    rocket: RocketState,
    environment: EnvironmentState,
    achievements: seq<Achievement>,
    availableMissions: seq<Mission>,
    completedMissions: seq<string>,
    telemetry: seq<TelemetryData>,
    isPaused: bool,
    gameTime: nat,
    credits: int,
    experience: int,
    level: int
  )

  /** Ledger fields that persist across mission attempts. */
  predicate SameLedger(s: GameState, t: GameState)
  {
    && t.credits == s.credits
    && t.experience == s.experience
    && t.level == s.level
    && t.completedMissions == s.completedMissions
  }
}
